=== FILE: README.md ===
# bh-rewards-bot in Dafny

A model of the core of bh-rewards-bot. The bot fetches a Twitch schedule every two hours.
Each time, it arms a timer for at most one event: the first one in fetched order that has not
ended, is not armed yet and starts within a week. The timer runs the configured mode at the
event's start. The modes are farming, harvesting and logging in. Farming waits until the stream is live, then logs
each eligible user in and starts watching. Harvesting reads every registered user's inventory
and appends the new reward codes to a ledger file. A Python companion groups, counts and
claims the saved codes. Around these sit the cookie checks, the e-mail code extraction and two
log writers.

Everything is pure. The clock, the fetched schedule, the live-status query, the cookie and
reward files and the browser work are parameters. Each `setTimeout` becomes a returned `Timer`
record. Each polling loop is a function over a finite trace of observations, and has a
"still waiting" outcome for when the trace ends first. Timestamps are integer milliseconds.

Modules, one per source file, plus shared helpers:

- `Schedule` covers `src/schedule.ts`: the scheduling cycle, the deduplication set of armed
  starts, and the live-status cache.
- `Actions` covers `src/actions.ts`: configuration, mode dispatch, the two waiting loops, and
  the farm, harvest and login loops.
- `Cookies` covers `src/cookies.ts`.
- `Ledger` covers `src/reward.ts`.
- `RewardRecord` holds the reward record and its JSON object form. `src/reward.ts` and
  `rewards.py` share this record.
- `Claims` covers the claiming side of `rewards.py`.
- `LogText` holds what `src/debuglog.ts` and `src/errorlog.ts` share. Both define `sanitize`
  identically. Both also start a log session once only, but they choose its path differently:
  the debug log names it after the local time (`gen_logpath`), the error log after the
  sanitized UTC time. So `StartSession` takes the path as a parameter.
- `DebugLog`, `ErrorLog` and `EmailPage` cover their source files.
- `Wrappers`, `Seqs` and `Strings` are generic helpers: Option and Result,
  filtering and counting, `split(sep)[0]` and decimal rendering.

Where the code and its documentation disagree, the model follows the code:

- The scheduler arms the first surviving event in fetched order, which need not be the
  earliest one. `Schedule.ArmsFirstNotEarliest` exhibits this.
- `waitUntilOffline` keeps polling while the stream is *not* live. It returns at the first poll
  that sees it live. `Actions.WaitUntilOfflineQuirk` exhibits this.
- `harvest` catches nothing, so the first throw ends the whole harvest. It also does not skip
  blocked users. `Actions.HarvestQuirks` exhibits both.
- Only a blocked user's watcher is stopped. A user whose browser work throws is caught and
  skipped, and its watcher is never stopped. `Actions.StoppedExactly` states this.

JavaScript truthiness is modelled where the code relies on it:

- a time string given as `""` counts as absent;
- a last-update timestamp of `0` counts as never updated;
- a memoised cookie value of `""` counts as unset.

## Model

| member | source | states |
|---|---|---|
| Schedule.DelayUntil | src/schedule.ts:114-116 | the timer delay is never negative: zero exactly when the time is already past, otherwise it lands exactly on the time |
| Schedule.SurvivorsAreEligible | src/schedule.ts:80-85 | the three successive filters keep exactly the events that are not over, not yet armed and less than a week away, in fetched order |
| Schedule.ScheduleActions | src/schedule.ts:76-117 | a cycle arms nothing exactly when no fetched event is eligible. Then the dedup set is unchanged. Otherwise it arms the first eligible event in fetched order, adds its start to the set, fires the mode at the start with the event's end, and schedules forgetting the start at the end |
| Schedule.Forget | src/schedule.ts:116 | the cleanup timer removes its start from the dedup set and keeps every other start |
| Schedule.StepCoherent | src/schedule.ts:103-116 | a scheduling cycle or a firing cleanup keeps two things true: the dedup set equals the starts with an outstanding timer pair, and no two pairs share a start |
| Schedule.RunCoherent | src/schedule.ts:67-71 | over any interleaving of refresh cycles and cleanups, no two armed timer pairs ever share a start |
| Schedule.SecondCycleIgnoresArmedStart | src/schedule.ts:82-83 | a later cycle never arms an event with the start armed by the previous one while that start is remembered |
| Schedule.HorizonBoundaries | src/schedule.ts:80-85 | an event ending exactly now is still armed; one starting exactly a week from now is not |
| Schedule.ArmsFirstNotEarliest | src/schedule.ts:87-90 | with a later event fetched before an earlier one, the later one is armed |
| Schedule.IsStreaming | src/schedule.ts:138-144 | a fresh cache answers without querying. A stale or never-set cache is stamped with the current time before querying. A successful query replaces the cached value; a failed one keeps it and fails the call |
| Schedule.FirstCallQueries | src/schedule.ts:139-141 | the first call always queries, because the cache starts out never updated |
| Schedule.CacheStalenessBound | src/schedule.ts:139-142 | after any call the cached status is at most 10 minutes old |
| Schedule.FailedQueryStillRefreshes | src/schedule.ts:139-141 | after a failed query, calls in the next 10 minutes do not retry; they answer the value cached before the failure |
| Schedule.SleepUntil | src/schedule.ts:152-154 | the sleep ends at the given time, or at once when that time has passed |
| Actions.Configure | src/actions.ts:31-38 | each configuration field is overwritten only when the update supplies it |
| Actions.ConfigureLaws | src/actions.ts:31-38 | configuring is idempotent, an empty update changes nothing, and setting the stream end keeps the scheduler |
| Actions.AutoAction | src/actions.ts:60-68 | an accepted mode string is that mode's name; any other string fails with the "not a supported mode" message quoting it |
| Actions.AutoActionRoundTrip | src/actions.ts:60-68 | every mode's name selects that mode |
| Actions.WaitUntilOnline | src/actions.ts:165-177 | the wait succeeds at the first poll that sees the stream. It gives up at the first offline poll more than 2 hours after the start. Every earlier poll was offline and within the limit |
| Actions.OfflineForTwoHoursGivesUp | src/actions.ts:168-174 | a stream that stays offline until the clock passes 2 hours makes the wait give up no later than that poll |
| Actions.WaitUntilOffline | src/actions.ts:179-184 | the loop returns at the first poll that sees the stream live, after only offline polls; it keeps waiting while every poll sees it offline |
| Actions.WaitUntilOfflineQuirk | src/actions.ts:181-183 | a stream still live at the first poll ends the wait at once, and one that stays offline never ends it |
| Actions.FarmLoop | src/actions.ts:80-103 | each user's verdict depends only on that user: skipped when blocked or unregistered, otherwise crashed, flagged blocked or watching. Only a blocked verdict changes the user record. The watcher count is the number of watching verdicts, and there is one save per newly blocked user, the last holding the final list. The stopped watchers are listed in increasing user order |
| Actions.StoppedExactly | src/actions.ts:90-95 | a user's watcher is stopped exactly when the user is flagged blocked; a crashed or farming user's watcher is never stopped |
| Actions.BlockedIsMonotonic | src/actions.ts:90-96 | a blocked user stays blocked |
| Actions.FlaggedExactly | src/actions.ts:84-96 | a user ends up blocked exactly when it already was, or when it was eligible and its check said so; a user is skipped exactly when it is not eligible |
| Actions.CrashIsolated | src/actions.ts:85-102 | a crash at one user changes no other user's verdict |
| Actions.WatchersBound | src/actions.ts:84-98 | the watcher count never exceeds the number of eligible users |
| Actions.FarmBatch | src/actions.ts:73-108 | the batch throws at its first poll exactly when no scheduler is configured. With one, the batch misses the window exactly when the wait gives up, and keeps waiting exactly when the wait does. Otherwise the user loop runs over the whole list. Without a stream end the batch stops after the loop. With one, it sleeps until the stream end and then runs the offline wait |
| Actions.HarvestLoop | src/actions.ts:146-163 | the harvested users are registered users whose inventory was read, listed in increasing order. A crash is at a registered user whose browser step threw |
| Actions.HarvestStops | src/actions.ts:146-158 | a crash happens at a registered user whose step threw. Every registered user before it was harvested, so it is the first such user, and nobody after it was harvested. Without a crash, the harvested users are exactly the registered ones |
| Actions.HarvestQuirks | src/actions.ts:146-151 | blocked registered users are harvested too, and after a throw no later user is harvested |
| Actions.SaveAll | src/actions.ts:158 | saving inventories one after another keeps the ledger consistent and never moves a previously saved record. Every code of every inventory ends up saved, and each appended record comes from an inventory with a code not saved before |
| Actions.SaveAllSnoc | src/actions.ts:146-158 | saving one more inventory after the others is one more `Rewards.save` on the ledger they left |
| Actions.HarvestAll | src/actions.ts:142-163 | the harvest reads the ledger file once, then saves the harvested users' inventories in harvest order. Every code in those inventories ends up saved, and the ledger begins with the file's previous contents |
| Actions.LoginLoop | src/actions.ts:117-137 | a login is attempted exactly for the registered users without valid saved cookies, once each, in list order |
| Cookies.CookieExists | src/cookies.ts:78-85 | true exactly when some cookie has the name |
| Cookies.AllCookiesExist | src/cookies.ts:87-92 | true exactly when every required name has a cookie |
| Cookies.AllCookiesExistImpliesValid | src/cookies.ts:17-19 | a finished login is always valid, but valid cookies need not include the login cookie |
| Cookies.GetUsername | src/cookies.ts:21-27 | the user name is the value of the first record named `name` or `login`, and there is none exactly when no such record exists |
| Cookies.ReadFromFile | src/cookies.ts:37-52 | saved cookies are restored exactly when the file exists and is valid; an existing invalid file is deleted |
| Cookies.Memoise | src/cookies.ts:100-110 | a set memo is kept; an unset one takes the looked-up value when there is one |
| Cookies.ChannelOf | src/cookies.ts:116 | the channel login is the longest prefix of the persistent cookie before its first `%3A` |
| Cookies.OauthToken | src/cookies.ts:100-110 | the getter changes only its memo field, and an unset memo returns the first auth-token value |
| Cookies.ChannelLogin | src/cookies.ts:112-122 | the getter changes only its memo field, and an unset memo returns the channel part of the first persistent value |
| Cookies.Login | src/cookies.ts:124-134 | the getter changes only its memo field, and an unset memo returns the first login value |
| Cookies.NewJarLooksUp | src/cookies.ts:100-134 | on a freshly built object each getter returns the first matching record's value, or nothing when there is none |
| Cookies.GettersStable | src/cookies.ts:100-134 | calling a getter twice gives what the first call gave, and leaves the object as the first call left it |
| Cookies.MemoWins | src/cookies.ts:101 | once a memo holds a non-empty value, the getter returns it whatever the cookies say |
| Cookies.TimeoutRule | src/cookies.ts:61-68 | a timeout of 0 never fires, a missing one means 30 seconds, and any other fires once that many seconds have passed |
| Cookies.WaitForCookies | src/cookies.ts:59-76 | the wait returns at the first poll that has all required cookies and has not timed out. It throws at the first poll whose timeout check fires. Every earlier poll neither timed out nor had all cookies |
| Cookies.ZeroTimeoutNeverGivesUp | src/cookies.ts:66-68 | with a timeout of 0 the wait never throws |
| Ledger.Read | src/reward.ts:18-26 | the saved list is the file's contents, or empty without a file; the code set matches it and the file is marked read |
| Ledger.Save | src/reward.ts:28-43 | the ledger is read first if needed and previously saved records keep their places. The appended records are the incoming ones whose code was not saved before the call, in incoming order and with their repetitions, and the code set stays in step |
| Ledger.FirstSaveReadsFile | src/reward.ts:30-32 | before any read, a save loads the file first and appends to its contents |
| Ledger.CodesAppend | src/reward.ts:36-39 | the codes of two lists joined are the codes of each |
| Ledger.SavedCodesCoverIncoming | src/reward.ts:34-39 | after a save every incoming code is saved |
| Ledger.SaveIdempotent | src/reward.ts:33-39 | saving the same records again adds nothing |
| Ledger.SavePreservesUniqueCodes | src/reward.ts:33-39 | a ledger without duplicate codes keeps none, provided the incoming list has none of its own |
| Ledger.FreshUnique | src/reward.ts:34 | dropping already saved codes keeps a duplicate-free list duplicate-free |
| Ledger.DuplicateWithinOneSave | src/reward.ts:34-36 | two incoming records with the same new code are both appended |
| RewardRecord.Codes | src/reward.ts:24 | the code set holds exactly the codes of the list's records |
| RewardRecord.ToDict | rewards.py:16-17 | the object has exactly the three field keys |
| RewardRecord.FromJson | rewards.py:22-26 | reading succeeds exactly when the three fields are present with their types. A missing field is reported by name: the first one missing, in the order code, name, claimed |
| RewardRecord.FromJsonToDict | rewards.py:16-26 | reading back what was written gives the same record |
| RewardRecord.ToDictFromJson | rewards.py:22-26 | a record read from an object writes back that object's three fields, and drops other keys |
| Claims.Pretty | rewards.py:29-30 | the pretty name is the lower-cased name without its last two characters, and empty for shorter names |
| Claims.PrettyDropsSuffix | rewards.py:29-30 | a lower-case name with two characters appended prints as that name |
| Claims.CodeList | rewards.py:64 | the codes of the list, position by position |
| Claims.ToDictGroupsUnclaimed | rewards.py:47-55 | the grouping has exactly the names with an unclaimed record. Under each name it lists that name's unclaimed codes in list order, checked against an independent filter |
| Claims.CountMatchesDict | rewards.py:39-44 | the counter has the grouping's names, and each count is that name's group size, always positive |
| Claims.RewardNamesAreCounterKeys | rewards.py:63-65 | the name table lists each counter key exactly once |
| Claims.RewardNamesMembers | rewards.py:39-44 | the counter's names are exactly the names some unclaimed record carries |
| Claims.RewardNamesFirstAppearance | rewards.py:65 | the counter's keys are in first-appearance order: an earlier name is carried by an unclaimed record before every unclaimed record of a later name |
| Claims.Init | rewards.py:59-66 | the groups are exactly the names with unclaimed records, each holding that name's unclaimed codes in list order. The ids are the positions of the name table, each naming a group whose size is its count. The codes follow the list, and every grouped code is one of them |
| Claims.GroupedCodesListed | rewards.py:62-64 | every grouped code is one of the list's codes |
| Claims.NamedIdsGrouped | rewards.py:65-66 | every id names a group |
| Claims.IdsCoverUnclaimedNames | rewards.py:65-66 | a name has an id exactly when it has an unclaimed record |
| Claims.IdsInFirstAppearanceOrder | rewards.py:65-66 | a smaller id names a reward whose first unclaimed record comes before every unclaimed record of the reward with the larger id |
| Claims.IndexOf | rewards.py:72 | the first position holding the code |
| Claims.Claim | rewards.py:68-73 | an unknown code fails the assertion. Otherwise the first record with the code is marked claimed and nothing else changes, the tables included |
| Claims.ClaimedFromStep | rewards.py:82-83 | claiming the first code and then the rest claims them all |
| Claims.ClaimAll | rewards.py:82-83 | claiming known codes one after the other succeeds. Every code's first record ends up claimed, no record loses its claim, codes and names stay, and records none of the codes points at are unchanged |
| Claims.SliceTo | rewards.py:81 | `codes[:count]` is a prefix of the codes: `count` of them, or for a negative count all but that many from the end |
| Claims.ClaimById | rewards.py:75-85 | an unknown id or too large a count fails. Otherwise it hands out the first `count` codes of the id's group and marks each one's first record claimed. No record loses its claim, records none of the codes points at are unchanged, and only the list changes |
| Claims.ClaimByIdRepeats | rewards.py:78-81 | the groups are never refreshed, so asking again hands out the same codes again |
| Claims.GetItem | rewards.py:96-99 | an int index succeeds exactly within the list, negative ones counting from the end; a name succeeds exactly when it has a group, and gives that group |
| Claims.NegativeIndexAliases | rewards.py:97-98 | a negative index and its non-negative counterpart fetch the same record |
| LogText.Sanitize | src/debuglog.ts:9-11 | the result has no white space, colon or comma, and is no longer than the input |
| LogText.SanitizeChar | src/debuglog.ts:9-11 | on one character: a comma is deleted, every white-space character and every colon becomes `_`, and any other character is kept. With `SanitizeAppend` this fixes the whole result |
| LogText.SanitizeAppend | src/debuglog.ts:9-11 | sanitizing distributes over concatenation |
| LogText.SanitizeKeepsClean | src/errorlog.ts:4-6 | a string without white space, colons or commas is left unchanged |
| LogText.SanitizeIdempotent | src/errorlog.ts:4-6 | sanitizing twice is sanitizing once |
| LogText.SanitizeLength | src/debuglog.ts:10 | exactly the commas are dropped |
| LogText.StartSession | src/debuglog.ts:23-27 | the first call fixes the path to the one given at that moment; later calls change nothing |
| LogText.SessionPathFixedOnce | src/errorlog.ts:12-20 | however many calls follow, the session keeps the first call's path |
| LogText.ErrorReportTags | src/errorlog.ts:24-26 | right after the opening words, the report says " at " exactly when a time is given, " for " exactly when only a watcher is given, and goes on to the message exactly when neither is |
| LogText.ErrorReportBothTags | src/debuglog.ts:31-33 | with both a time and a watcher, the time tag comes first and the watcher tag right after it |
| ErrorLog.LogPathShape | src/errorlog.ts:16-18 | the session path lies under `./logs/`, ends in `.log`, holds the sanitized time in between, and has no white space, colon or comma |
| ErrorLog.Log | src/errorlog.ts:22-28 | the session starts at the first call only, and the error report is appended to the session file |
| ErrorLog.LogShowsTags | src/errorlog.ts:24-27 | the appended report says " at " right after its opening words exactly when a time is given, " for " exactly when only a watcher is, and goes on to the message exactly when neither is |
| DebugLog.GenLogPathShape | src/debuglog.ts:4-7 | the session path lies under `./logs/`, ends in `.log`, and has no white space, colon or comma |
| DebugLog.FileStampClean | src/debuglog.ts:6 | the date stamp of the file name has no white space, colon or comma |
| Strings.NatToStringRoundTrip | src/debuglog.ts:6 | the decimal rendering of a number reads back as that number |
| DebugLog.MessageLineTags | src/debuglog.ts:40-42 | right after "Message", the line says " from " exactly when a watcher is given, " at " exactly when only a time is given, and goes on to the message exactly when neither is |
| DebugLog.StampRecoverable | src/debuglog.ts:13-16 | the sanitized time has no colon, so the text before a line's first colon is the time stamp |
| DebugLog.Log | src/debuglog.ts:38-45 | the session starts at the first call only, in the file named after the local time. The message line goes to both the session file and the last-run file, and begins with the time stamp |
| DebugLog.LogError | src/debuglog.ts:29-36 | as for `log`, with the time-stamped error report as the line |
| DebugLog.LogShowsTags | src/debuglog.ts:40-44 | the written line says " from " right after "Message" exactly when a watcher is given, " at " there exactly when only a time is given, and goes on to the message exactly when neither is |
| EmailPage.ExtractCode | src/emailpage.ts:28-30 | the code is the longest space-free prefix of the text |
| EmailPage.ExtractCodeCases | src/emailpage.ts:28-30 | text without a space is its own code, text starting with a space gives an empty code, and extracting again changes nothing |

## Left out

- The browser is not modelled. Page automation (login, watching, the blocked check, reading and
  clicking the inventory, screenshots) is an abstract outcome per user, so a user's outcome
  depends on that user alone.
- The network is not modelled. The live-status query, the schedule fetch and the token request
  are parameters: the query's answer or failure, and the fetched events.
- Timer scheduling is reduced to records. `setTimeout` and `setInterval` become returned timer
  records and a sequence of happenings, and the sleeps are durations.
- Concurrency is left out. The armed mode runs independently of the scheduler, and that
  interleaving is not modelled.
- A failed schedule fetch is not modelled: `Schedule.Happening` has no such event. As written,
  `startLoop` calls `scheduleActions` (src/schedule.ts:69-70) without awaiting or catching it,
  so a failed fetch is an unhandled promise rejection.
- Event times are integers. Parsing the start and end date strings, including invalid ones, is
  left out.
- The distance printed in days and hours (src/schedule.ts:96-100) uses floating point and only
  goes to the console.
- All console output is left out.
- File reads and writes are parameters and results, not I/O:
  - the reward, user and cookie files, and the Python `write`, `json`, `load_rewards` and
    `from_file`;
  - JSON parse failures.
- `Action.register` is an empty placeholder, so there is nothing to model.
- `autoExecute` launches a browser and is not modelled.
- `Cookies.injectInto` and `Cookies.save` only call the browser or the file system.
- `Reward.__hash__` and `Rewards.__repr__` (table printing) are not modelled.
- Actions.FarmLoop: `src/users.ts` has no `blocked` field and no `save` method, so the farm loop as written
  would throw at its save. The model gives `User` a `blocked` flag and records each save as a
  snapshot of the list, which is what the loop evidently intends.
- LogText.ErrorReportTags: the watcher tag reads `watcher.user.name` (src/errorlog.ts:25,
  src/debuglog.ts:32), but `src/watcher.ts` gives a watcher no `user` field, so passing a watcher
  would throw. The model takes the watcher's user name instead.
- DebugLog.MessageLineTags: the same substitution for the " from " tag at src/debuglog.ts:41.
- Schedule.RunCoherent: the two-hour spacing of refreshes is not constrained; the coherence of
  the armed set holds for any order and timing of refreshes and cleanups.
- Actions.WaitUntilOnline: the sleep at src/actions.ts:170 is not awaited, so the real loop
  re-polls at once and relies on the 10-minute cache. The model sees only the sequence of polls,
  not their spacing.
- Actions.WaitUntilOffline, Actions.FarmBatch: a failed live-status query inside the waiting
  loops would reject the loop's promise. The traces hold only answers.
- Cookies.WaitForCookies and the waiting loops observe a finite trace. An infinite wait shows up
  as the "still waiting" outcome, not as non-termination.
- Claims.Pretty: only ASCII letters are lower-cased. Python's Unicode case mapping is not
  modelled.
- RewardRecord.FromJson: the Python dataclass does not check field types. The model rejects a
  wrongly typed field, so it is stricter than the source.

=== FILE: actions.dfy ===
/** The batch orchestration of `src/actions.ts`: configuration, mode dispatch, the two
    polling loops around a stream, the sequential farm loop over the user list, the harvest
    loop and the login loop. Browser work (login, watch, the blocked check, reading the
    inventory) is an abstract per-user outcome supplied by the caller; the polls of the
    live-status cache are a finite trace of observations. */
module Actions {
  import opened Wrappers
  import Schedule
  import Seqs
  import Cookies
  import RewardRecord
  import Ledger

  /** Give up waiting for the stream after 2 hours. */
  const MAX_WAITING_TIME: int := 2 * 60 * 60 * 1000

  // ---------------------------------------------------------------------------------
  // Configuration and dispatch.

  /** The static `ActionConfig`: the end of the current stream and the scheduler whose
      live-status cache the waiting loops poll. */
  datatype Config = Config(currentStreamEnd: Option<int>, scheduler: Option<Schedule.OnlineCache>)

  const EmptyConfig := Config(None, None)

  /** `Action.configure`: a field is overwritten only when the update supplies it. */
  function Configure(c: Config, update: Config): (r: Config)
    ensures r.currentStreamEnd == if update.currentStreamEnd.Some? then update.currentStreamEnd else c.currentStreamEnd
    ensures r.scheduler == if update.scheduler.Some? then update.scheduler else c.scheduler
  {
    Config(
      if update.currentStreamEnd.Some? then update.currentStreamEnd else c.currentStreamEnd,
      if update.scheduler.Some? then update.scheduler else c.scheduler)
  }

  /** Applying the same update twice is applying it once, an empty update changes
      nothing, and an update of the stream end alone keeps the scheduler. */
  lemma ConfigureLaws(c: Config, update: Config, end: int)
    ensures Configure(Configure(c, update), update) == Configure(c, update)
    ensures Configure(c, EmptyConfig) == c
    ensures Configure(c, Config(Some(end), None)).scheduler == c.scheduler
    ensures Configure(c, Config(Some(end), None)).currentStreamEnd == Some(end)
  {
  }

  datatype Mode = Farm | Harvest | Register | Login

  /** The mode string that selects each mode. */
  function ModeName(m: Mode): string {
    match m
    case Farm => "farm"
    case Harvest => "harvest"
    case Register => "register"
    case Login => "login"
  }

  /** The `switch` of `autoAction`: the four mode names select their mode; any other
      string throws. */
  function AutoAction(mode: string): (r: Result<Mode, string>)
    ensures r.Success? ==> ModeName(r.value) == mode
    ensures r.Failure? ==> r.error == "\"" + mode + "\" is not a supported mode."
  {
    if mode == "farm" then Success(Farm)
    else if mode == "harvest" then Success(Harvest)
    else if mode == "register" then Success(Register)
    else if mode == "login" then Success(Login)
    else Failure("\"" + mode + "\" is not a supported mode.")
  }

  /** Every mode's name dispatches back to that mode: exactly four strings are accepted. */
  lemma AutoActionRoundTrip(m: Mode)
    ensures AutoAction(ModeName(m)) == Success(m)
  {
  }

  // ---------------------------------------------------------------------------------
  // Waiting loops.

  /** One poll of the live-status cache: its answer, and the clock read right after it. */
  datatype Poll = Poll(time: int, streaming: bool)

  datatype WaitOutcome =
    | Online(polls: nat)    // `waitUntilOnline` returned true after this many polls
    | GaveUp(polls: nat)    // it returned false after this many polls
    | StillWaiting          // the observed trace ended while it was still waiting

  /** The first `k` polls all saw the stream offline within the waiting limit. */
  predicate Waiting(trace: seq<Poll>, k: int, startWait: int)
    requires 0 <= k <= |trace|
  {
    forall j :: 0 <= j < k ==> !trace[j].streaming && trace[j].time - startWait <= MAX_WAITING_TIME
  }

  /** `waitUntilOnline`: true at the first poll that sees the stream; false at the first
      offline poll after which strictly more than 2 hours have elapsed. */
  function WaitUntilOnline(trace: seq<Poll>, startWait: int): (r: WaitOutcome)
    ensures r.Online? ==>
      0 < r.polls <= |trace| && trace[r.polls - 1].streaming && Waiting(trace, r.polls - 1, startWait)
    ensures r.GaveUp? ==>
      0 < r.polls <= |trace| && !trace[r.polls - 1].streaming
      && trace[r.polls - 1].time - startWait > MAX_WAITING_TIME && Waiting(trace, r.polls - 1, startWait)
    ensures r.StillWaiting? ==> Waiting(trace, |trace|, startWait)
    decreases |trace|
  {
    if |trace| == 0 then StillWaiting
    else if trace[0].streaming then Online(1)
    else if trace[0].time - startWait > MAX_WAITING_TIME then GaveUp(1)
    else
      var rest := WaitUntilOnline(trace[1..], startWait);
      assert forall j :: 1 <= j <= |trace| - 1 ==> trace[j] == trace[1..][j - 1];
      match rest
      case Online(k) => Online(k + 1)
      case GaveUp(k) => GaveUp(k + 1)
      case StillWaiting => StillWaiting
  }

  /** A stream that stays offline while the clock passes the 2-hour limit makes the wait
      give up: the batch does not start. */
  lemma {:induction false} OfflineForTwoHoursGivesUp(trace: seq<Poll>, startWait: int, k: nat)
    requires k < |trace| && trace[k].time - startWait > MAX_WAITING_TIME
    requires forall j :: 0 <= j <= k ==> !trace[j].streaming
    ensures WaitUntilOnline(trace, startWait).GaveUp?
    ensures WaitUntilOnline(trace, startWait).polls <= k + 1
    decreases k
  {
    if trace[0].time - startWait <= MAX_WAITING_TIME {
      assert k > 0;
      OfflineForTwoHoursGivesUp(trace[1..], startWait, k - 1);
    }
  }

  /** `waitUntilOffline` as written: it keeps polling while the stream is NOT live and
      returns at the first poll that sees it live. The result is the number of polls, or
      `None` when the trace ends first. */
  function WaitUntilOffline(trace: seq<bool>): (r: Option<nat>)
    ensures r.Some? ==> (0 < r.value <= |trace| && trace[r.value - 1]
                         && forall j :: 0 <= j < r.value - 1 ==> !trace[j])
    ensures r.None? ==> forall j :: 0 <= j < |trace| ==> !trace[j]
    decreases |trace|
  {
    if |trace| == 0 then None
    else if trace[0] then Some(1)
    else
      var rest := WaitUntilOffline(trace[1..]);
      assert forall j :: 1 <= j < |trace| ==> trace[j] == trace[1..][j - 1];
      if rest.Some? then Some(rest.value + 1) else None
  }

  /** The negated loop condition: a stream still live at the first poll ends the wait
      at once, and a stream that is already offline keeps it waiting for as long as it
      stays offline. */
  lemma WaitUntilOfflineQuirk(trace: seq<bool>)
    ensures |trace| > 0 && trace[0] ==> WaitUntilOffline(trace) == Some(1)
    ensures (forall j :: 0 <= j < |trace| ==> !trace[j]) ==> WaitUntilOffline(trace).None?
  {
  }

  // ---------------------------------------------------------------------------------
  // Farming.

  /** An entry of the persisted user list. */
  datatype User = User(name: string, password: string, registered: bool, blocked: bool)

  /** What the browser work of one user ends in: something threw, the user turned out to
      be chat-banned, or the user reached the farming line. */
  datatype SessionOutcome = Crash | Blocked | Farming

  /** What the farm loop did with one user. */
  datatype Verdict = Skipped | Crashed | FlaggedBlocked | Watching

  /** Blocked and unregistered users are skipped: no watcher is created for them. */
  predicate Eligible(u: User) {
    !u.blocked && u.registered
  }

  function VerdictFor(u: User, browser: User -> SessionOutcome): Verdict {
    if !Eligible(u) then Skipped
    else match browser(u)
      case Crash => Crashed
      case Blocked => FlaggedBlocked
      case Farming => Watching
  }

  /** The user record after its verdict: only a blocked verdict changes it. */
  function Flag(u: User, v: Verdict): User {
    if v == FlaggedBlocked then u.(blocked := true) else u
  }

  /** The farm loop after the first `n` users: the user list as held in memory, one
      verdict per processed user, the watcher count, the snapshots written by each save
      of the user list, and the indices of the users whose watcher was stopped. */
  datatype FarmState = FarmState(users: seq<User>, verdicts: seq<Verdict>, nWatchers: nat,
                                 saves: seq<seq<User>>, stopped: seq<nat>)

  function CountVerdict(vs: seq<Verdict>, v: Verdict): nat {
    Seqs.CountWhere(vs, (x: Verdict) => x == v)
  }

  /** The sequential `for … of` loop of `farm` over the first `n` users. Each user's
      verdict depends on that user alone (a crash is caught and the loop goes on), a
      blocked user is flagged, the list saved and its watcher stopped at once, and
      `n_watchers` counts the users that reached the farming line. Only a blocked user's
      watcher is stopped: a farming one keeps watching, and a crashed one is left as it
      was when it threw. */
  function FarmLoop(users: seq<User>, browser: User -> SessionOutcome, n: nat): (s: FarmState)
    requires n <= |users|
    ensures |s.users| == |users| && |s.verdicts| == n
    ensures forall i :: 0 <= i < n ==> s.verdicts[i] == VerdictFor(users[i], browser)
    ensures forall i :: 0 <= i < n ==> s.users[i] == Flag(users[i], s.verdicts[i])
    ensures forall i :: n <= i < |users| ==> s.users[i] == users[i]
    ensures s.nWatchers == CountVerdict(s.verdicts, Watching)
    ensures |s.saves| == CountVerdict(s.verdicts, FlaggedBlocked)
    ensures |s.saves| > 0 ==> s.saves[|s.saves| - 1] == s.users
    ensures forall k :: 0 <= k < |s.stopped| ==> s.stopped[k] < n
    ensures Increasing(s.stopped)
    decreases n
  {
    if n == 0 then FarmState(users, [], 0, [], [])
    else
      var s := FarmLoop(users, browser, n - 1);
      var u := users[n - 1];
      var v := VerdictFor(u, browser);
      var users' := s.users[n - 1 := Flag(u, v)];
      CountAppend(s.verdicts, v, Watching);
      CountAppend(s.verdicts, v, FlaggedBlocked);
      var watchers := s.nWatchers + (if v == Watching then 1 else 0);
      var saves := if v == FlaggedBlocked then s.saves + [users'] else s.saves;
      var stopped := if v == FlaggedBlocked then s.stopped + [n - 1] else s.stopped;
      AppendIncreasing(s.stopped, n - 1);
      FarmState(users', s.verdicts + [v], watchers, saves, stopped)
  }

  predicate Increasing(xs: seq<nat>) {
    forall k, l :: 0 <= k < l < |xs| ==> xs[k] < xs[l]
  }

  lemma AppendIncreasing(xs: seq<nat>, x: nat)
    requires Increasing(xs)
    requires forall k :: 0 <= k < |xs| ==> xs[k] < x
    ensures Increasing(xs + [x])
  {
  }

  lemma CountAppend(vs: seq<Verdict>, v: Verdict, w: Verdict)
    ensures CountVerdict(vs + [v], w) == CountVerdict(vs, w) + (if v == w then 1 else 0)
  {
    Seqs.CountWhereAppend(vs, [v], (x: Verdict) => x == w);
  }

  /** The watchers stopped are exactly those of the users flagged blocked, in user order;
      crashed and farming users' watchers are never stopped. */
  lemma {:induction false} StoppedExactly(users: seq<User>, browser: User -> SessionOutcome, n: nat)
    requires n <= |users|
    ensures forall i :: i in FarmLoop(users, browser, n).stopped <==>
      0 <= i < n && FarmLoop(users, browser, n).verdicts[i] == FlaggedBlocked
    decreases n
  {
    if n > 0 {
      StoppedExactly(users, browser, n - 1);
      var p := FarmLoop(users, browser, n - 1);
      var s := FarmLoop(users, browser, n);
      var v := VerdictFor(users[n - 1], browser);
      assert s.verdicts == p.verdicts + [v];
      assert s.stopped == if v == FlaggedBlocked then p.stopped + [n - 1] else p.stopped;
      forall i
        ensures i in s.stopped <==> 0 <= i < n && s.verdicts[i] == FlaggedBlocked
      {
        if 0 <= i < n - 1 {
          assert s.verdicts[i] == p.verdicts[i];
        } else if i == n - 1 {
          assert s.verdicts[i] == v;
          assert i !in p.stopped;
        }
      }
    }
  }

  /** `blocked` only ever goes from false to true. */
  lemma BlockedIsMonotonic(users: seq<User>, browser: User -> SessionOutcome)
    ensures var s := FarmLoop(users, browser, |users|);
      forall i :: 0 <= i < |users| ==> (users[i].blocked ==> s.users[i].blocked)
  {
  }

  /** A user is flagged blocked exactly when it was eligible and its blocked check said so;
      skipped users are left as they were. */
  lemma FlaggedExactly(users: seq<User>, browser: User -> SessionOutcome)
    ensures var s := FarmLoop(users, browser, |users|);
      forall i :: 0 <= i < |users| ==>
        (s.users[i].blocked <==> users[i].blocked || (Eligible(users[i]) && browser(users[i]) == Blocked))
        && (s.verdicts[i] == Skipped <==> !Eligible(users[i]))
  {
    var s := FarmLoop(users, browser, |users|);
    forall i | 0 <= i < |users|
      ensures s.users[i].blocked <==> users[i].blocked || (Eligible(users[i]) && browser(users[i]) == Blocked)
      ensures s.verdicts[i] == Skipped <==> !Eligible(users[i])
    {
      assert s.verdicts[i] == VerdictFor(users[i], browser);
      assert s.users[i] == Flag(users[i], s.verdicts[i]);
    }
  }

  /** A crash is isolated: two runs whose browsers differ only on user `j` give every other
      user the same verdict. */
  lemma CrashIsolated(users: seq<User>, b1: User -> SessionOutcome, b2: User -> SessionOutcome, j: nat)
    requires j < |users|
    requires forall i :: 0 <= i < |users| && i != j ==> b1(users[i]) == b2(users[i])
    ensures forall i :: 0 <= i < |users| && i != j ==>
      FarmLoop(users, b1, |users|).verdicts[i] == FarmLoop(users, b2, |users|).verdicts[i]
  {
  }

  /** The number of users the loop does not skip. */
  function EligibleCount(users: seq<User>): nat {
    Seqs.CountWhere(users, Eligible)
  }

  /** Every watcher counted is an eligible user that reached the farming line. */
  lemma WatchersBound(users: seq<User>, browser: User -> SessionOutcome, n: nat)
    requires n <= |users|
    ensures FarmLoop(users, browser, n).nWatchers <= EligibleCount(users[..n])
  {
    var s := FarmLoop(users, browser, n);
    forall i | 0 <= i < n && s.verdicts[i] == Watching
      ensures Eligible(users[..n][i])
    {
      assert s.verdicts[i] == VerdictFor(users[i], browser);
    }
    WatchingNeedsEligible(s.verdicts, users[..n]);
  }

  /** Position by position, a `Watching` verdict belongs to an eligible user. */
  lemma {:induction false} WatchingNeedsEligible(vs: seq<Verdict>, us: seq<User>)
    requires |vs| == |us|
    requires forall i :: 0 <= i < |vs| && vs[i] == Watching ==> Eligible(us[i])
    ensures CountVerdict(vs, Watching) <= EligibleCount(us)
    decreases |vs|
  {
    if |vs| > 0 {
      assert forall i :: 1 <= i < |vs| ==> vs[1..][i - 1] == vs[i] && us[1..][i - 1] == us[i];
      WatchingNeedsEligible(vs[1..], us[1..]);
    }
  }

  /** The end of a farm batch. */
  datatype FarmResult =
    | NoScheduler                                  // no scheduler configured: the first poll throws
    | MissedWindow                                 // the stream did not start within 2 hours
    | StillWaitingForStream                        // the trace ended before the wait decided
    | NoStreamEnd(loop: FarmState)                 // no stream end configured: throws after the loop
    | Farmed(loop: FarmState, sleep: nat, drain: Option<nat>)

  /** `farm`: wait for the stream, run the user loop, sleep until the configured stream
      end (`now` is the clock after the loop), then run `waitUntilOffline`. */
  function FarmBatch(c: Config, startWait: int, online: seq<Poll>, users: seq<User>,
                     browser: User -> SessionOutcome, now: int, offline: seq<bool>): (r: FarmResult)
    ensures (r.NoStreamEnd? || r.Farmed?) ==> (c.scheduler.Some?
      && exists k :: 0 <= k < |online| && online[k].streaming && Waiting(online, k, startWait))
    ensures r.MissedWindow? ==> (c.scheduler.Some? && exists k :: (0 <= k < |online|
      && online[k].time - startWait > MAX_WAITING_TIME && Waiting(online, k, startWait)))
    ensures r.NoStreamEnd? ==> c.currentStreamEnd.None?
    ensures r.Farmed? ==> (c.currentStreamEnd.Some?
      && now + r.sleep >= c.currentStreamEnd.value
      && r.loop.nWatchers <= EligibleCount(users))
    ensures r.NoScheduler? <==> c.scheduler.None?
    ensures c.scheduler.Some? ==>
      && (r.MissedWindow? <==> WaitUntilOnline(online, startWait).GaveUp?)
      && (r.StillWaitingForStream? <==> WaitUntilOnline(online, startWait).StillWaiting?)
      && (r.NoStreamEnd? <==> WaitUntilOnline(online, startWait).Online? && c.currentStreamEnd.None?)
    ensures (r.NoStreamEnd? || r.Farmed?) ==> r.loop == FarmLoop(users, browser, |users|)
    ensures r.Farmed? ==> (r.sleep == Schedule.SleepUntil(c.currentStreamEnd.value, now)
      && r.drain == WaitUntilOffline(offline))
  {
    if c.scheduler.None? then NoScheduler
    else
      match WaitUntilOnline(online, startWait)
      case GaveUp(_) => MissedWindow
      case StillWaiting => StillWaitingForStream
      case Online(_) =>
        var loop := FarmLoop(users, browser, |users|);
        WatchersBound(users, browser, |users|);
        assert users[..|users|] == users;
        if c.currentStreamEnd.None? then NoStreamEnd(loop)
        else Farmed(loop, Schedule.SleepUntil(c.currentStreamEnd.value, now), WaitUntilOffline(offline))
  }

  // ---------------------------------------------------------------------------------
  // Harvesting.

  /** What the browser work of one user gives during a harvest: a throw, or the rewards
      read from the inventory. */
  datatype HarvestOutcome = HarvestCrash | Inventory(rewards: seq<RewardRecord.Reward>)

  /** The users the harvest loop got through, in order, and, once a browser step threw,
      the user at which the whole harvest stopped. */
  datatype HarvestRun = HarvestRun(harvested: seq<nat>, crashedAt: Option<nat>)

  /** The `harvest` loop over the first `n` users. Unregistered users are skipped; blocked
      users are not; nothing catches a throw, so the first crash ends the whole harvest. */
  function HarvestLoop(users: seq<User>, browser: User -> HarvestOutcome, n: nat): (s: HarvestRun)
    requires n <= |users|
    ensures forall i :: i in s.harvested ==> 0 <= i < n && users[i].registered && browser(users[i]).Inventory?
    ensures s.crashedAt.Some? ==> (s.crashedAt.value < n && users[s.crashedAt.value].registered
      && browser(users[s.crashedAt.value]).HarvestCrash?)
    ensures forall k :: 0 <= k < |s.harvested| - 1 ==> s.harvested[k] < s.harvested[k + 1]
    decreases n
  {
    if n == 0 then HarvestRun([], None)
    else
      var s := HarvestLoop(users, browser, n - 1);
      var u := users[n - 1];
      if s.crashedAt.Some? || !u.registered then s
      else if browser(u).HarvestCrash? then s.(crashedAt := Some(n - 1))
      else
        var h := s.harvested + [n - 1];
        assert forall k :: 0 <= k < |s.harvested| ==> h[k] == s.harvested[k] && s.harvested[k] in s.harvested;
        HarvestRun(h, None)
  }

  /** Where the harvest stops: a crash happens at the first registered user whose browser
      step throws, every registered user before it was harvested and nobody after it; without
      a crash, the harvested users are exactly the registered ones. */
  lemma {:induction false} HarvestStops(users: seq<User>, browser: User -> HarvestOutcome, n: nat)
    requires n <= |users|
    ensures var s := HarvestLoop(users, browser, n);
      && (s.crashedAt.Some? ==> (s.crashedAt.value < n && users[s.crashedAt.value].registered
            && browser(users[s.crashedAt.value]).HarvestCrash?
            && (forall i :: i in s.harvested ==> i < s.crashedAt.value)
            && (forall i :: 0 <= i < s.crashedAt.value && users[i].registered ==> i in s.harvested)))
      && (s.crashedAt.None? ==> forall i :: 0 <= i < n ==> (i in s.harvested <==> users[i].registered))
    decreases n
  {
    if n > 0 {
      HarvestStops(users, browser, n - 1);
    }
  }

  /** The inventories of the harvested users, in harvest order. */
  function Inventories(users: seq<User>, browser: User -> HarvestOutcome, harvested: seq<nat>): (r: seq<seq<RewardRecord.Reward>>)
    requires Harvestable(users, browser, harvested)
    ensures |r| == |harvested|
    ensures forall k :: 0 <= k < |r| ==> r[k] == browser(users[harvested[k]]).rewards
  {
    seq(|harvested|, k requires 0 <= k < |harvested| => browser(users[harvested[k]]).rewards)
  }

  /** Every listed user exists and had its inventory read. */
  predicate Harvestable(users: seq<User>, browser: User -> HarvestOutcome, harvested: seq<nat>) {
    forall k :: 0 <= k < |harvested| ==> harvested[k] < |users| && browser(users[harvested[k]]).Inventory?
  }

  /** `Rewards.save` once per inventory, in order: earlier records keep their places, every
      code of every inventory ends up saved, and each appended record comes from an
      inventory and has a code that was not saved before. */
  function SaveAll(l: Ledger.Ledger, file: Option<seq<RewardRecord.Reward>>, batches: seq<seq<RewardRecord.Reward>>): (r: Ledger.Ledger)
    requires Ledger.Consistent(l) && l.fileChecked
    ensures Ledger.Consistent(r) && r.fileChecked
    ensures |l.saved| <= |r.saved| && r.saved[..|l.saved|] == l.saved
    ensures forall k, x :: 0 <= k < |batches| && x in batches[k] ==> x.code in r.savedCodes
    ensures forall i :: |l.saved| <= i < |r.saved| ==>
      r.saved[i].code !in l.savedCodes && exists k :: 0 <= k < |batches| && r.saved[i] in batches[k]
    decreases |batches|
  {
    if |batches| == 0 then l
    else
      var next := Ledger.Save(l, file, batches[0]);
      var r := SaveAll(next, file, batches[1..]);
      SaveAllStep(l, file, batches, r);
      r
  }

  /** The first save followed by the saves of the other inventories is the saves of them all. */
  lemma SaveAllStep(l: Ledger.Ledger, file: Option<seq<RewardRecord.Reward>>, batches: seq<seq<RewardRecord.Reward>>, r: Ledger.Ledger)
    requires Ledger.Consistent(l) && l.fileChecked && |batches| > 0
    requires var next := Ledger.Save(l, file, batches[0]);
      && Ledger.Consistent(r) && r.fileChecked
      && |next.saved| <= |r.saved| && r.saved[..|next.saved|] == next.saved
      && (forall k, x :: 0 <= k < |batches[1..]| && x in batches[1..][k] ==> x.code in r.savedCodes)
      && (forall i :: |next.saved| <= i < |r.saved| ==>
            r.saved[i].code !in next.savedCodes && exists k :: 0 <= k < |batches[1..]| && r.saved[i] in batches[1..][k])
    ensures |l.saved| <= |r.saved| && r.saved[..|l.saved|] == l.saved
    ensures forall k, x :: 0 <= k < |batches| && x in batches[k] ==> x.code in r.savedCodes
    ensures forall i :: |l.saved| <= i < |r.saved| ==>
      r.saved[i].code !in l.savedCodes && exists k :: 0 <= k < |batches| && r.saved[i] in batches[k]
  {
    var next := Ledger.Save(l, file, batches[0]);
    assert Ledger.Loaded(l, file) == l;
    assert r.saved[..|l.saved|] == r.saved[..|next.saved|][..|l.saved|];
    Ledger.PrefixCodes(l.saved, next.saved);
    Ledger.PrefixCodes(next.saved, r.saved);
    Ledger.SavedCodesCoverIncoming(l, file, batches[0]);
    forall k, x | 0 <= k < |batches| && x in batches[k]
      ensures x.code in r.savedCodes
    {
      if k == 0 {
        var j :| 0 <= j < |batches[0]| && batches[0][j] == x;
      } else {
        assert batches[1..][k - 1] == batches[k];
      }
    }
    forall i | |l.saved| <= i < |r.saved|
      ensures r.saved[i].code !in l.savedCodes && exists k :: 0 <= k < |batches| && r.saved[i] in batches[k]
    {
      if i < |next.saved| {
        assert r.saved[i] == next.saved[i];
        assert r.saved[i] in batches[0];
      } else {
        var k :| 0 <= k < |batches[1..]| && r.saved[i] in batches[1..][k];
        assert batches[1..][k] == batches[k + 1];
      }
    }
  }

  /** Saving the inventories in order is one more `Rewards.save` after the saves of the
      earlier ones. */
  lemma {:induction false} SaveAllSnoc(l: Ledger.Ledger, file: Option<seq<RewardRecord.Reward>>,
                                       batches: seq<seq<RewardRecord.Reward>>, b: seq<RewardRecord.Reward>)
    requires Ledger.Consistent(l) && l.fileChecked
    ensures SaveAll(l, file, batches + [b]) == Ledger.Save(SaveAll(l, file, batches), file, b)
    decreases |batches|
  {
    if |batches| == 0 {
      assert batches + [b] == [b];
      assert [b][1..] == [];
    } else {
      assert (batches + [b])[0] == batches[0];
      assert (batches + [b])[1..] == batches[1..] + [b];
      SaveAllSnoc(Ledger.Save(l, file, batches[0]), file, batches[1..], b);
    }
  }

  /** The whole `harvest`: `Rewards.read()` loads the ledger from `file`, then each
      harvested user's inventory is saved in turn. A save touches only the ledger and a
      browser step only the page, so the ledger is the saves of the harvested users'
      inventories in harvest order. */
  function HarvestAll(file: Option<seq<RewardRecord.Reward>>, users: seq<User>,
                      browser: User -> HarvestOutcome): (r: (Ledger.Ledger, HarvestRun))
    ensures r.1 == HarvestLoop(users, browser, |users|)
    ensures Harvestable(users, browser, r.1.harvested)
    ensures r.0 == SaveAll(Ledger.Read(file), file, Inventories(users, browser, r.1.harvested))
    ensures Ledger.Consistent(r.0) && r.0.fileChecked
    ensures file.Some? ==> |file.value| <= |r.0.saved| && r.0.saved[..|file.value|] == file.value
    ensures forall k, x :: 0 <= k < |r.1.harvested| && x in browser(users[r.1.harvested[k]]).rewards ==> x.code in r.0.savedCodes
  {
    var run := HarvestLoop(users, browser, |users|);
    assert forall k :: 0 <= k < |run.harvested| ==> run.harvested[k] in run.harvested;
    var start := Ledger.Read(file);
    var inv := Inventories(users, browser, run.harvested);
    (SaveAll(start, file, inv), run)
  }

  /** Unlike the farm loop, the harvest loop visits blocked users, and a crash at one user
      stops the harvest for every later user. */
  lemma HarvestQuirks(users: seq<User>, browser: User -> HarvestOutcome)
    ensures var s := HarvestLoop(users, browser, |users|);
      && (s.crashedAt.None? ==> forall i :: 0 <= i < |users| && users[i].registered && users[i].blocked ==> i in s.harvested)
      && (s.crashedAt.Some? ==> forall i :: s.crashedAt.value <= i < |users| ==> i !in s.harvested)
  {
    HarvestStops(users, browser, |users|);
  }

  // ---------------------------------------------------------------------------------
  // Logging in.

  /** Where a user's cookies are kept. */
  function CookiePath(name: string): string {
    "./cookies/cookies-" + name + ".json"
  }

  /** The `login` loop: users whose cookie file holds valid cookies are skipped, and so
      are unregistered users; every other user gets a login attempt, whose failure is
      caught. `cookieFile` gives the parsed contents of the cookie file at each path. The
      result lists the users attempted, in order. */
  function LoginLoop(users: seq<User>, cookieFile: string -> Option<seq<Cookies.Cookie>>, n: nat): (r: seq<nat>)
    requires n <= |users|
    ensures forall i :: i in r <==> (0 <= i < n && users[i].registered
      && !Cookies.Exist(Cookies.ReadFromFile(cookieFile(CookiePath(users[i].name))).cookies))
    ensures forall k :: 0 <= k < |r| ==> r[k] < n
    ensures forall a, b :: 0 <= a < b < |r| ==> r[a] < r[b]
    decreases n
  {
    if n == 0 then []
    else
      var r := LoginLoop(users, cookieFile, n - 1);
      var u := users[n - 1];
      if Cookies.Exist(Cookies.ReadFromFile(cookieFile(CookiePath(u.name))).cookies) || !u.registered then r
      else r + [n - 1]
  }
}

=== FILE: claims.dfy ===
/** The reward-claiming side of `rewards.py`: grouping and counting the unclaimed codes,
    the name and id tables built once by `Rewards.__init__`, and claiming codes. Python's
    dictionaries keep insertion order; where that order matters the model keeps a
    sequence of keys beside the map. Writing the file back is left to the caller: the
    state after a claim holds the list that `write()` serialises. */
module Claims {
  import opened Wrappers
  import opened RewardRecord
  import Seqs

  // ---------------------------------------------------------------------------------
  // pretty

  /** `str.lower()` on one character, for ASCII letters. */
  function LowerChar(c: char): char {
    if 'A' <= c <= 'Z' then (c as int - 'A' as int + 'a' as int) as char else c
  }

  /** `pretty`: the name lower-cased, without its last two characters (`[:-2]` gives the
      empty string for names shorter than two). */
  function Pretty(s: string): (r: string)
    ensures |r| == if |s| >= 2 then |s| - 2 else 0
    ensures forall i :: 0 <= i < |r| ==> r[i] == LowerChar(s[i])
  {
    var n := if |s| >= 2 then |s| - 2 else 0;
    seq(n, i requires 0 <= i < n => LowerChar(s[i]))
  }

  /** Appending two characters to a lower-case name is undone by `pretty`. */
  lemma PrettyDropsSuffix(s: string, suffix: string)
    requires |suffix| == 2
    requires forall i :: 0 <= i < |s| ==> LowerChar(s[i]) == s[i]
    ensures Pretty(s + suffix) == s
  {
  }

  // ---------------------------------------------------------------------------------
  // Grouping and counting.

  /** The codes of a list of records, in order. */
  function CodeList(rs: seq<Reward>): (cs: seq<string>)
    ensures |cs| == |rs| && forall i :: 0 <= i < |rs| ==> cs[i] == rs[i].code
  {
    seq(|rs|, i requires 0 <= i < |rs| => rs[i].code)
  }

  /** The reference grouping: the codes of the unclaimed records named `name`, in list
      order. */
  function CodesNamed(rs: seq<Reward>, name: string): seq<string> {
    CodeList(Seqs.Filter(rs, (r: Reward) => !r.claimed && r.name == name))
  }

  /** Module-level `to_dict`: the loop that groups unclaimed codes by reward name. */
  function ToDict(rs: seq<Reward>): map<string, seq<string>>
    decreases |rs|
  {
    if |rs| == 0 then map[]
    else
      var d := ToDict(rs[..|rs| - 1]);
      var r := rs[|rs| - 1];
      if r.claimed then d
      else d[r.name := (if r.name in d then d[r.name] else []) + [r.code]]
  }

  /** `count_rewards`: the `Counter` of unclaimed records per name. */
  function CountRewards(rs: seq<Reward>): map<string, nat>
    decreases |rs|
  {
    if |rs| == 0 then map[]
    else
      var c := CountRewards(rs[..|rs| - 1]);
      var r := rs[|rs| - 1];
      if r.claimed then c
      else c[r.name := (if r.name in c then c[r.name] else 0) + 1]
  }

  /** The keys of `count_rewards`, in insertion order: each name the first time an
      unclaimed record carries it. */
  function RewardNames(rs: seq<Reward>): seq<string>
    decreases |rs|
  {
    if |rs| == 0 then []
    else
      var names := RewardNames(rs[..|rs| - 1]);
      var r := rs[|rs| - 1];
      if r.claimed || r.name in names then names else names + [r.name]
  }

  /** Splitting off the last record. */
  lemma CodesNamedSnoc(rs: seq<Reward>, name: string)
    requires |rs| > 0
    ensures var r := rs[|rs| - 1];
      CodesNamed(rs, name) == CodesNamed(rs[..|rs| - 1], name) + (if !r.claimed && r.name == name then [r.code] else [])
  {
    var p := (r: Reward) => !r.claimed && r.name == name;
    assert rs == rs[..|rs| - 1] + [rs[|rs| - 1]];
    Seqs.FilterAppend(rs[..|rs| - 1], [rs[|rs| - 1]], p);
    var a := Seqs.Filter(rs[..|rs| - 1], p);
    var b := Seqs.Filter([rs[|rs| - 1]], p);
    assert CodeList(a + b) == CodeList(a) + CodeList(b);
  }

  /** `to_dict` holds exactly the names with an unclaimed record, and under each name the
      codes of its unclaimed records in list order; claimed records never appear. */
  lemma {:induction false} ToDictGroupsUnclaimed(rs: seq<Reward>)
    ensures forall name :: (name in ToDict(rs) <==> CodesNamed(rs, name) != [])
    ensures forall name :: name in ToDict(rs) ==> ToDict(rs)[name] == CodesNamed(rs, name)
    decreases |rs|
  {
    if |rs| > 0 {
      ToDictGroupsUnclaimed(rs[..|rs| - 1]);
      forall name
        ensures name in ToDict(rs) <==> CodesNamed(rs, name) != []
        ensures name in ToDict(rs) ==> ToDict(rs)[name] == CodesNamed(rs, name)
      {
        CodesNamedSnoc(rs, name);
      }
    }
  }

  /** For every name, `count_rewards` gives the length of that name's `to_dict` entry, and
      the two have the same keys. */
  lemma {:induction false} CountMatchesDict(rs: seq<Reward>)
    ensures forall name :: name in CountRewards(rs) <==> name in ToDict(rs)
    ensures forall name :: name in CountRewards(rs) ==> CountRewards(rs)[name] == |ToDict(rs)[name]| > 0
    decreases |rs|
  {
    if |rs| > 0 {
      CountMatchesDict(rs[..|rs| - 1]);
    }
  }

  /** The name table lists each key of `count_rewards` exactly once. */
  lemma {:induction false} RewardNamesAreCounterKeys(rs: seq<Reward>)
    ensures forall name :: name in RewardNames(rs) <==> name in CountRewards(rs)
    ensures forall i, j :: 0 <= i < j < |RewardNames(rs)| ==> RewardNames(rs)[i] != RewardNames(rs)[j]
    decreases |rs|
  {
    if |rs| > 0 {
      RewardNamesAreCounterKeys(rs[..|rs| - 1]);
    }
  }

  /** The record is unclaimed and carries the name. */
  predicate Carries(r: Reward, name: string) {
    !r.claimed && r.name == name
  }

  /** The name table holds exactly the names some unclaimed record carries. */
  lemma {:induction false} RewardNamesMembers(rs: seq<Reward>)
    ensures forall name :: name in RewardNames(rs) <==> exists a :: 0 <= a < |rs| && Carries(rs[a], name)
    decreases |rs|
  {
    if |rs| > 0 {
      var p := rs[..|rs| - 1];
      RewardNamesMembers(p);
      assert forall a :: 0 <= a < |p| ==> p[a] == rs[a];
    }
  }

  /** Some unclaimed record carries `x` before any unclaimed record carries `y`. */
  predicate FirstBefore(rs: seq<Reward>, x: string, y: string) {
    exists a :: 0 <= a < |rs| && Carries(rs[a], x) && forall b :: 0 <= b <= a ==> !Carries(rs[b], y)
  }

  /** The name table is in first-appearance order: of two listed names, the earlier one is
      carried by an unclaimed record that comes before every unclaimed record of the later. */
  lemma {:induction false} RewardNamesFirstAppearance(rs: seq<Reward>)
    ensures forall i, j :: 0 <= i < j < |RewardNames(rs)| ==> FirstBefore(rs, RewardNames(rs)[i], RewardNames(rs)[j])
    decreases |rs|
  {
    if |rs| > 0 {
      var p, r := rs[..|rs| - 1], rs[|rs| - 1];
      RewardNamesFirstAppearance(p);
      RewardNamesMembers(p);
      var names, pn := RewardNames(rs), RewardNames(p);
      assert names == pn || names == pn + [r.name];
      forall i, j | 0 <= i < j < |names|
        ensures FirstBefore(rs, names[i], names[j])
      {
        if j < |pn| {
          assert names[i] == pn[i] && names[j] == pn[j];
          assert FirstBefore(p, pn[i], pn[j]);
          var a :| 0 <= a < |p| && Carries(p[a], pn[i]) && forall b :: 0 <= b <= a ==> !Carries(p[b], pn[j]);
          assert forall b :: 0 <= b <= a ==> rs[b] == p[b];
        } else {
          assert names == pn + [r.name] && r.name !in pn;
          assert names[i] == pn[i] && pn[i] in pn;
          var a :| 0 <= a < |p| && Carries(p[a], pn[i]);
          assert forall b :: 0 <= b <= a ==> rs[b] == p[b];
        }
      }
    }
  }

  /** `id_to_name`: position `i` of the name table. */
  function IdToName(names: seq<string>): map<int, string> {
    map i | 0 <= i < |names| :: names[i]
  }

  // ---------------------------------------------------------------------------------
  // The Rewards object.

  /** The fields of a `Rewards` object. `dict`, `counted`, `codes`, `names` and `idToName`
      are computed once from the list at construction and never refreshed. */
  datatype Rewards = Rewards(list: seq<Reward>, dict: map<string, seq<string>>, counted: map<string, nat>,
                             codes: seq<string>, names: seq<string>, idToName: map<int, string>)

  /** What holds of every object built by `Init` and changed only by claims: `codes` is
      the list's codes, every id leads to a group, and every grouped code is in `codes`. */
  predicate Valid(st: Rewards) {
    && |st.codes| == |st.list|
    && (forall i :: 0 <= i < |st.list| ==> st.codes[i] == st.list[i].code)
    && (forall id :: id in st.idToName ==> st.idToName[id] in st.dict)
    && (forall name, k :: name in st.dict && 0 <= k < |st.dict[name]| ==> st.dict[name][k] in st.codes)
  }

  /** `Rewards.__init__`. */
  function Init(rs: seq<Reward>): (st: Rewards)
    ensures Valid(st)
    ensures st.list == rs
    ensures forall id :: id in st.idToName <==> 0 <= id < |st.names|
    ensures forall id :: id in st.idToName ==>
      st.idToName[id] in st.counted && |st.dict[st.idToName[id]]| == st.counted[st.idToName[id]] > 0
    ensures forall name :: name in st.dict <==> CodesNamed(rs, name) != []
    ensures forall name :: name in st.dict ==> st.dict[name] == CodesNamed(rs, name)
  {
    var names := RewardNames(rs);
    ToDictGroupsUnclaimed(rs);
    GroupedCodesListed(rs);
    NamedIdsGrouped(rs);
    CountMatchesDict(rs);
    RewardNamesAreCounterKeys(rs);
    Rewards(rs, ToDict(rs), CountRewards(rs), CodeList(rs), names, IdToName(names))
  }

  /** Every code in a `to_dict` group is one of the list's codes. */
  lemma GroupedCodesListed(rs: seq<Reward>)
    ensures forall name, k :: name in ToDict(rs) && 0 <= k < |ToDict(rs)[name]| ==> ToDict(rs)[name][k] in CodeList(rs)
  {
    ToDictGroupsUnclaimed(rs);
    var cs := CodeList(rs);
    forall name, k | name in ToDict(rs) && 0 <= k < |ToDict(rs)[name]|
      ensures ToDict(rs)[name][k] in cs
    {
      var f := Seqs.Filter(rs, (r: Reward) => !r.claimed && r.name == name);
      assert ToDict(rs)[name][k] == f[k].code;
      var i :| 0 <= i < |rs| && rs[i] == f[k];
      assert cs[i] == f[k].code;
    }
  }

  /** Every id names a `to_dict` group. */
  lemma NamedIdsGrouped(rs: seq<Reward>)
    ensures forall id :: id in IdToName(RewardNames(rs)) ==> IdToName(RewardNames(rs))[id] in ToDict(rs)
  {
    RewardNamesAreCounterKeys(rs);
    CountMatchesDict(rs);
    var names := RewardNames(rs);
    forall id | id in IdToName(names)
      ensures IdToName(names)[id] in ToDict(rs)
    {
      assert IdToName(names)[id] == names[id];
    }
  }

  /** The ids are the positions of the name table, which holds each unclaimed name once. */
  lemma IdsCoverUnclaimedNames(rs: seq<Reward>)
    ensures var st := Init(rs);
      forall name :: (exists id :: id in st.idToName && st.idToName[id] == name) <==> name in ToDict(rs)
  {
    var st := Init(rs);
    RewardNamesAreCounterKeys(rs);
    CountMatchesDict(rs);
    forall name | name in ToDict(rs)
      ensures exists id :: id in st.idToName && st.idToName[id] == name
    {
      var i :| 0 <= i < |st.names| && st.names[i] == name;
      assert st.idToName[i] == name;
    }
  }

  /** Ids follow first appearance: a smaller id names a reward whose first unclaimed record
      comes before every unclaimed record of the reward with the larger id. */
  lemma IdsInFirstAppearanceOrder(rs: seq<Reward>)
    ensures var st := Init(rs);
      forall i, j :: 0 <= i < j && j in st.idToName ==>
        (i in st.idToName && FirstBefore(rs, st.idToName[i], st.idToName[j]))
  {
    var names := RewardNames(rs);
    var ids := IdToName(names);
    assert Init(rs).idToName == ids;
    RewardNamesFirstAppearance(rs);
    forall i, j | 0 <= i < j && j in ids
      ensures i in ids && FirstBefore(rs, ids[i], ids[j])
    {
      assert ids[i] == names[i] && ids[j] == names[j];
    }
  }

  datatype ClaimError =
    | CodeNotFound(code: string)          // the assertion in `claim`
    | UnknownId(id: int)                  // `KeyError` from `id_to_name`
    | NotEnoughCodes(count: int, pretty: string)  // the assertion in `claim_by_id`
    | IndexOutOfRange(index: int)         // `IndexError` from `__getitem__`
    | UnknownName(name: string)           // `KeyError` from `__getitem__`

  /** `list.index`: the first position holding `x`. */
  function IndexOf(s: seq<string>, x: string): (i: nat)
    requires x in s
    ensures i < |s| && s[i] == x && forall j :: 0 <= j < i ==> s[j] != x
  {
    if s[0] == x then 0 else 1 + IndexOf(s[1..], x)
  }

  /** `claim(code)`: marks the first record with this code claimed; nothing else changes. */
  function Claim(st: Rewards, code: string): (r: Result<Rewards, ClaimError>)
    requires Valid(st)
    ensures r.Failure? <==> code !in st.codes
    ensures r.Failure? ==> r.error == CodeNotFound(code)
    ensures r.Success? ==> (Valid(r.value) && r.value == st.(list := r.value.list)
      && |r.value.list| == |st.list|
      && r.value.list[IndexOf(st.codes, code)] == st.list[IndexOf(st.codes, code)].(claimed := true)
      && forall i :: 0 <= i < |st.list| && i != IndexOf(st.codes, code) ==> r.value.list[i] == st.list[i])
  {
    if code !in st.codes then Failure(CodeNotFound(code))
    else
      var i := IndexOf(st.codes, code);
      Success(st.(list := st.list[i := st.list[i].(claimed := true)]))
  }

  /** `after` is `st` once every code of `cs` has been claimed: every code of `cs` is
      known and its first record is claimed, codes and names stay, claimed records stay
      claimed, records none of the codes points at are unchanged, and the tables built at
      construction are untouched. */
  predicate ClaimedFrom(st: Rewards, cs: seq<string>, after: Rewards) {
    && after == st.(list := after.list)
    && |after.list| == |st.list| == |st.codes|
    && (forall k :: 0 <= k < |cs| ==> cs[k] in st.codes && after.list[IndexOf(st.codes, cs[k])].claimed)
    && (forall i :: 0 <= i < |st.list| ==> after.list[i].code == st.list[i].code && after.list[i].name == st.list[i].name)
    && (forall i :: 0 <= i < |st.list| && st.list[i].claimed ==> after.list[i].claimed)
    && (forall i :: 0 <= i < |st.list| && (forall k :: 0 <= k < |cs| ==> cs[k] !in st.codes || IndexOf(st.codes, cs[k]) != i)
          ==> after.list[i] == st.list[i])
  }

  /** Claiming the first code and then the rest is claiming them all. */
  lemma ClaimedFromStep(st: Rewards, cs: seq<string>, mid: Rewards, after: Rewards)
    requires Valid(st) && |cs| > 0 && Claim(st, cs[0]) == Success(mid)
    requires ClaimedFrom(mid, cs[1..], after)
    ensures ClaimedFrom(st, cs, after)
  {
    assert mid.codes == st.codes;
    var j := IndexOf(st.codes, cs[0]);
    assert forall k :: 1 <= k < |cs| ==> cs[k] == cs[1..][k - 1];
    forall k | 0 <= k < |cs|
      ensures cs[k] in st.codes && after.list[IndexOf(st.codes, cs[k])].claimed
    {
      if k == 0 {
        assert mid.list[j].claimed;
      } else {
        assert cs[k] == cs[1..][k - 1];
      }
    }
    forall i | 0 <= i < |st.list| && (forall k :: 0 <= k < |cs| ==> cs[k] !in st.codes || IndexOf(st.codes, cs[k]) != i)
      ensures after.list[i] == st.list[i]
    {
      assert i != j;
      assert forall k :: 0 <= k < |cs[1..]| ==> cs[1..][k] == cs[k + 1];
    }
  }

  /** Claiming a list of codes one after the other. */
  function ClaimAll(st: Rewards, cs: seq<string>): (r: Result<Rewards, ClaimError>)
    requires Valid(st)
    ensures (forall k :: 0 <= k < |cs| ==> cs[k] in st.codes) ==> r.Success?
    ensures r.Success? ==> Valid(r.value) && ClaimedFrom(st, cs, r.value)
    decreases |cs|
  {
    if |cs| == 0 then Success(st)
    else
      match Claim(st, cs[0])
      case Failure(e) => Failure(e)
      case Success(mid) =>
        assert forall k :: 1 <= k < |cs| ==> cs[k] == cs[1..][k - 1];
        var r := ClaimAll(mid, cs[1..]);
        if r.Success? then
          ClaimedFromStep(st, cs, mid, r.value);
          r
        else r
  }

  /** `codes[:count]` for `count <= len(codes)`: a negative count drops that many codes
      from the end. */
  function SliceTo(codes: seq<string>, count: int): (r: seq<string>)
    requires count <= |codes|
    ensures |r| == if count >= 0 then count else if |codes| + count >= 0 then |codes| + count else 0
    ensures r == codes[..|r|]
  {
    if count >= 0 then codes[..count]
    else if |codes| + count >= 0 then codes[..|codes| + count]
    else []
  }

  /** `claim_by_id(id, count)`: the first `count` codes of the name with this id, each
      marked claimed, read from the groups computed at construction. */
  function ClaimById(st: Rewards, id: int, count: int): (r: Result<(Rewards, seq<string>), ClaimError>)
    requires Valid(st)
    ensures r.Failure? <==> id !in st.idToName || count > |st.dict[st.idToName[id]]|
    ensures r.Success? ==>
      var group := st.dict[st.idToName[id]];
      var got := r.value.1;
      && |got| <= |group| && got == group[..|got|]
      && |got| == (if count >= 0 then count else if |group| + count >= 0 then |group| + count else 0)
      && Valid(r.value.0) && r.value.0 == st.(list := r.value.0.list)
      && forall k :: 0 <= k < |got| ==> r.value.0.list[IndexOf(st.codes, got[k])].claimed
    ensures r.Success? ==> ClaimedFrom(st, r.value.1, r.value.0)
  {
    if id !in st.idToName then Failure(UnknownId(id))
    else
      var name := st.idToName[id];
      var group := st.dict[name];
      if count > |group| then Failure(NotEnoughCodes(count, Pretty(name)))
      else
        var got := SliceTo(group, count);
        assert forall k :: 0 <= k < |got| ==> got[k] in st.codes by {
          forall k | 0 <= k < |got|
            ensures got[k] in st.codes
          {
            assert got[k] == group[k];
          }
        }
        match ClaimAll(st, got)
        case Success(st') => Success((st', got))
  }

  /** The groups are never refreshed, so a second `claim_by_id` with the same arguments on
      the same object hands out the same codes again. */
  lemma ClaimByIdRepeats(st: Rewards, id: int, count: int)
    requires Valid(st) && ClaimById(st, id, count).Success?
    ensures var first := ClaimById(st, id, count).value;
      ClaimById(first.0, id, count).Success? && ClaimById(first.0, id, count).value.1 == first.1
  {
  }

  datatype Item = Position(index: int) | Name(name: string)
  datatype Got = One(reward: Reward) | Group(codes: seq<string>)

  /** `__getitem__`: an int indexes the list (negative from the end), a string looks up the
      name's group computed at construction. */
  function GetItem(st: Rewards, item: Item): (r: Result<Got, ClaimError>)
    ensures item.Position? ==> (r.Success? <==> -|st.list| <= item.index < |st.list|)
    ensures item.Name? ==> (r.Success? <==> item.name in st.dict)
    ensures item.Name? && r.Success? ==> r.value == Group(st.dict[item.name])
  {
    match item
    case Position(i) =>
      if 0 <= i < |st.list| then Success(One(st.list[i]))
      else if -|st.list| <= i < 0 then Success(One(st.list[|st.list| + i]))
      else Failure(IndexOutOfRange(i))
    case Name(n) =>
      if n in st.dict then Success(Group(st.dict[n])) else Failure(UnknownName(n))
  }

  /** A negative index and its non-negative counterpart fetch the same record. */
  lemma NegativeIndexAliases(st: Rewards, i: int)
    requires 0 <= i < |st.list|
    ensures GetItem(st, Position(i - |st.list|)) == GetItem(st, Position(i)) == Success(One(st.list[i]))
  {
  }
}

=== FILE: cookies.dfy ===
/** The cookie checks of `src/cookies.ts`: searches over a list of name/value records, the
    validity decision made when a cookie file is read, the memoised getters and the
    timeout rule of `waitForCookies`. */
module Cookies {
  import opened Wrappers
  import Strings

  datatype Cookie = Cookie(name: string, value: string)

  /** The cookie names a finished login must have produced. */
  const REQUIRED: seq<string> := ["auth-token", "persistent", "login"]

  /** `Cookies.cookieExists`: some record has this name. */
  function CookieExists(cs: seq<Cookie>, name: string): (b: bool)
    ensures b <==> exists i :: 0 <= i < |cs| && cs[i].name == name
    decreases |cs|
  {
    if |cs| == 0 then false
    else if cs[0].name == name then true
    else
      assert forall i :: 1 <= i < |cs| ==> cs[i] == cs[1..][i - 1];
      CookieExists(cs[1..], name)
  }

  /** `areValid`: an auth token and a persistent cookie are present; `login` is not
      required here. */
  predicate AreValid(cs: seq<Cookie>) {
    CookieExists(cs, "auth-token") && CookieExists(cs, "persistent")
  }

  /** `#allCookiesExist`: the loop over the required names, stopping at the first one
      missing. */
  function AllCookiesExist(cs: seq<Cookie>, required: seq<string>): (b: bool)
    ensures b <==> forall k :: 0 <= k < |required| ==> CookieExists(cs, required[k])
    decreases |required|
  {
    if |required| == 0 then true
    else if !CookieExists(cs, required[0]) then false
    else
      assert forall k :: 1 <= k < |required| ==> required[k] == required[1..][k - 1];
      AllCookiesExist(cs, required[1..])
  }

  /** A finished login is always a valid one, while valid cookies need not hold a `login`
      record. */
  lemma AllCookiesExistImpliesValid(cs: seq<Cookie>)
    ensures AllCookiesExist(cs, REQUIRED) ==> AreValid(cs)
    ensures AreValid([Cookie("auth-token", "t"), Cookie("persistent", "p")])
    ensures !AllCookiesExist([Cookie("auth-token", "t"), Cookie("persistent", "p")], REQUIRED)
  {
    if AllCookiesExist(cs, REQUIRED) {
      assert CookieExists(cs, REQUIRED[0]) && CookieExists(cs, REQUIRED[1]);
    }
    var both := [Cookie("auth-token", "t"), Cookie("persistent", "p")];
    assert both[0].name == "auth-token" && both[1].name == "persistent";
    assert !CookieExists(both, REQUIRED[2]);
  }

  /** The value of the first record with one of the given names, if any. */
  function FirstValue(cs: seq<Cookie>, names: set<string>): (r: Option<string>)
    ensures r.None? <==> forall i :: 0 <= i < |cs| ==> cs[i].name !in names
    ensures r.Some? ==> exists i :: (0 <= i < |cs| && cs[i].name in names && cs[i].value == r.value
      && forall j :: 0 <= j < i ==> cs[j].name !in names)
    decreases |cs|
  {
    if |cs| == 0 then None
    else if cs[0].name in names then Some(cs[0].value)
    else
      var r := FirstValue(cs[1..], names);
      assert forall i :: 1 <= i < |cs| ==> cs[i] == cs[1..][i - 1];
      if r.Some? then
        var i :| 0 <= i < |cs[1..]| && cs[1..][i].name in names && cs[1..][i].value == r.value
          && forall j :: 0 <= j < i ==> cs[1..][j].name !in names;
        assert cs[i + 1] == cs[1..][i];
        r
      else r
  }

  /** `getUsername`: the value of the first record named `name` or `login`; `undefined`
      when there is none. */
  function GetUsername(cs: seq<Cookie>): (r: Option<string>)
    ensures r.None? <==> !CookieExists(cs, "name") && !CookieExists(cs, "login")
    ensures r.Some? ==> exists i :: (0 <= i < |cs| && (cs[i].name == "name" || cs[i].name == "login")
      && cs[i].value == r.value && forall j :: 0 <= j < i ==> cs[j].name != "name" && cs[j].name != "login")
  {
    FirstValue(cs, {"name", "login"})
  }

  /** `exist()`: the wrapped value is not null. */
  predicate Exist(c: Option<seq<Cookie>>) {
    c.Some?
  }

  datatype FileRead = FileRead(cookies: Option<seq<Cookie>>, deleted: bool)

  /** `readFromFile`: `file` is the parsed contents of the cookie file, `None` when it does
      not exist. Invalid saved cookies are deleted and give a null wrapper. */
  function ReadFromFile(file: Option<seq<Cookie>>): (r: FileRead)
    ensures Exist(r.cookies) <==> file.Some? && AreValid(file.value)
    ensures Exist(r.cookies) ==> r.cookies == file
    ensures r.deleted <==> file.Some? && !AreValid(file.value)
  {
    if file.None? then FileRead(None, false)
    else if !AreValid(file.value) then FileRead(None, true)
    else FileRead(file, false)
  }

  // ---------------------------------------------------------------------------------
  // Memoised getters.

  /** A `Cookies` object built from a cookie list, with its three memo fields. */
  datatype Jar = Jar(cookies: seq<Cookie>, oauthToken: Option<string>, channelLogin: Option<string>, login: Option<string>)

  function NewJar(cs: seq<Cookie>): Jar {
    Jar(cs, None, None, None)
  }

  /** A freshly built object looks every value up: each getter's first call returns the
      first matching record's value, or nothing when there is none. */
  lemma NewJarLooksUp(cs: seq<Cookie>)
    ensures OauthToken(NewJar(cs)).1 == FirstValue(cs, {"auth-token"})
    ensures Login(NewJar(cs)).1 == FirstValue(cs, {"login"})
    ensures ChannelLogin(NewJar(cs)).1 == MapOption(FirstValue(cs, {"persistent"}), ChannelOf)
  {
  }

  /** A memo field counts as unset when it is `undefined` or the empty string (both are
      falsy in JavaScript). */
  predicate Unset(m: Option<string>) {
    m.None? || m.value == ""
  }

  /** The memo after a getter call: a set field is kept; an unset one takes the looked-up
      value when there is one. */
  function Memoise(m: Option<string>, found: Option<string>): (r: Option<string>)
    ensures !Unset(m) ==> r == m
    ensures Unset(m) && found.Some? ==> r == found
    ensures Unset(m) && found.None? ==> r == m
  {
    if !Unset(m) then m else if found.Some? then found else m
  }

  /** `channelLogin`'s derivation from the persistent cookie: its value up to the first
      URL-encoded colon. */
  function ChannelOf(persistent: string): (r: string)
    ensures Strings.IsPrefix(r, persistent)
    ensures forall j :: 0 <= j < |r| ==> !Strings.OccursAt(persistent, "%3A", j)
    ensures |r| == |persistent| || Strings.OccursAt(persistent, "%3A", |r|)
  {
    Strings.SplitHead(persistent, "%3A")
  }

  function MapOption(o: Option<string>, f: string -> string): Option<string> {
    if o.Some? then Some(f(o.value)) else None
  }

  /** The getter `oauthToken`: the value of the first `auth-token` record. */
  function OauthToken(j: Jar): (r: (Jar, Option<string>))
    ensures r.0 == j.(oauthToken := r.1)
    ensures Unset(j.oauthToken) && CookieExists(j.cookies, "auth-token") ==>
      r.1 == FirstValue(j.cookies, {"auth-token"})
  {
    var m := Memoise(j.oauthToken, FirstValue(j.cookies, {"auth-token"}));
    (j.(oauthToken := m), m)
  }

  /** The getter `channelLogin`: the first `persistent` value cut at its first `%3A`. */
  function ChannelLogin(j: Jar): (r: (Jar, Option<string>))
    ensures r.0 == j.(channelLogin := r.1)
    ensures Unset(j.channelLogin) && CookieExists(j.cookies, "persistent") ==>
      r.1 == Some(ChannelOf(FirstValue(j.cookies, {"persistent"}).value))
  {
    var m := Memoise(j.channelLogin, MapOption(FirstValue(j.cookies, {"persistent"}), ChannelOf));
    (j.(channelLogin := m), m)
  }

  /** The getter `login`: the value of the first `login` record. */
  function Login(j: Jar): (r: (Jar, Option<string>))
    ensures r.0 == j.(login := r.1)
    ensures Unset(j.login) && CookieExists(j.cookies, "login") ==>
      r.1 == FirstValue(j.cookies, {"login"})
  {
    var m := Memoise(j.login, FirstValue(j.cookies, {"login"}));
    (j.(login := m), m)
  }

  /** The getters are memoised: a second call returns what the first one did and leaves
      the object as the first one left it. */
  lemma GettersStable(j: Jar)
    ensures OauthToken(OauthToken(j).0) == OauthToken(j)
    ensures ChannelLogin(ChannelLogin(j).0) == ChannelLogin(j)
    ensures Login(Login(j).0) == Login(j)
  {
  }

  /** Once a memo holds a non-empty value, the getter returns it whatever the cookies say. */
  lemma MemoWins(j: Jar, v: string)
    requires v != ""
    ensures OauthToken(j.(oauthToken := Some(v))).1 == Some(v)
    ensures ChannelLogin(j.(channelLogin := Some(v))).1 == Some(v)
    ensures Login(j.(login := Some(v))).1 == Some(v)
  {
  }

  // ---------------------------------------------------------------------------------
  // waitForCookies.

  /** The timeout check at `elapsed` milliseconds into the wait: a timeout of 0 never
      fires, a missing one (`undefined` or `null`) means 30 seconds, and otherwise it
      fires once `elapsed >= 1000 * timeout`. */
  predicate TimedOut(timeout: Option<int>, elapsed: int) {
    timeout != Some(0) && elapsed >= 1000 * timeout.GetOr(30)
  }

  lemma TimeoutRule(timeout: Option<int>, elapsed: int)
    ensures timeout == Some(0) ==> !TimedOut(timeout, elapsed)
    ensures timeout.None? ==> (TimedOut(timeout, elapsed) <==> elapsed >= 30000)
    ensures timeout.Some? && timeout.value != 0 ==> (TimedOut(timeout, elapsed) <==> elapsed >= 1000 * timeout.value)
  {
  }

  /** One iteration of the wait: the clock read by the timeout check and the cookies the
      page had right after it. */
  datatype CookiePoll = CookiePoll(time: int, cookies: seq<Cookie>)

  datatype CookieWait = Ready(polls: nat) | GaveUp(polls: nat) | Pending

  /** The poll at which the wait ends: its timeout check fired, or the page had all
      required cookies. */
  predicate Stops(p: CookiePoll, timeout: Option<int>, start: int) {
    TimedOut(timeout, p.time - start) || AllCookiesExist(p.cookies, REQUIRED)
  }

  /** The wait had neither timed out nor seen all required cookies in its first `k` polls. */
  predicate StillWaiting(trace: seq<CookiePoll>, k: int, timeout: Option<int>, start: int)
    requires 0 <= k <= |trace|
  {
    forall j :: 0 <= j < k ==> !Stops(trace[j], timeout, start)
  }

  /** `waitForCookies`: each iteration first checks the timeout (and throws), then reads the
      page's cookies and returns once all required ones exist. */
  function WaitForCookies(trace: seq<CookiePoll>, timeout: Option<int>, start: int): (r: CookieWait)
    ensures r.Ready? ==> (0 < r.polls <= |trace| && StillWaiting(trace, r.polls - 1, timeout, start)
      && !TimedOut(timeout, trace[r.polls - 1].time - start) && AllCookiesExist(trace[r.polls - 1].cookies, REQUIRED))
    ensures r.GaveUp? ==> (0 < r.polls <= |trace| && StillWaiting(trace, r.polls - 1, timeout, start)
      && TimedOut(timeout, trace[r.polls - 1].time - start))
    ensures r.Pending? ==> StillWaiting(trace, |trace|, timeout, start)
  {
    var k := FirstStop(trace, 0, timeout, start);
    if k == |trace| then Pending
    else if TimedOut(timeout, trace[k].time - start) then GaveUp(k + 1)
    else Ready(k + 1)
  }

  /** The first poll from `i` on at which the wait ends, or `|trace|` when there is none. */
  function FirstStop(trace: seq<CookiePoll>, i: nat, timeout: Option<int>, start: int): (k: nat)
    requires i <= |trace| && StillWaiting(trace, i, timeout, start)
    ensures i <= k <= |trace| && StillWaiting(trace, k, timeout, start)
    ensures k < |trace| ==> Stops(trace[k], timeout, start)
    decreases |trace| - i
  {
    if i == |trace| || Stops(trace[i], timeout, start) then i
    else FirstStop(trace, i + 1, timeout, start)
  }

  /** With a timeout of 0 the wait never throws. */
  lemma ZeroTimeoutNeverGivesUp(trace: seq<CookiePoll>, start: int)
    ensures !WaitForCookies(trace, Some(0), start).GaveUp?
  {
  }
}

=== FILE: debuglog.dfy ===
/** The debug log of `src/debuglog.ts`: every entry is stamped with the sanitized UTC time
    and appended both to the session's log file and to `./logs/last_run.log`. The clock
    is a parameter; the file appends are returned. */
module DebugLog {
  import opened Wrappers
  import opened LogText
  import Strings

  const LAST_RUN_PATH: string := "./logs/last_run.log"

  /** The local-time fields `gen_logpath` reads; `month` is zero-based like `getMonth()`. */
  datatype LocalTime = LocalTime(year: nat, month: nat, date: nat, hours: nat, minutes: nat)

  /** One reading of the clock: the local fields and `toUTCString()`. */
  datatype Clock = Clock(local: LocalTime, utc: string)

  /** `gen_logpath`: `./logs/<year>_<month+1>_<date>-<hours>_<minutes>.log`. */
  function GenLogPath(t: LocalTime): string {
    "./logs/" + FileStamp(t) + ".log"
  }

  /** `<year>_<month+1>_<date>-<hours>_<minutes>`, the numbers in decimal. */
  function FileStamp(t: LocalTime): string {
    Strings.NatToString(t.year) + "_" + Strings.NatToString(t.month + 1) + "_"
    + Strings.NatToString(t.date) + "-" + Strings.NatToString(t.hours) + "_"
    + Strings.NatToString(t.minutes)
  }

  /** The session path is a file under `./logs/` ending in `.log`, with no white space,
      colon or comma in it. */
  lemma GenLogPathShape(t: LocalTime)
    ensures var p := GenLogPath(t);
      Strings.IsPrefix("./logs/", p) && Clean(p) && p[|p| - 4..] == ".log"
  {
    FileStampClean(t);
    var s1 := "./logs/" + FileStamp(t);
    CleanAppend("./logs/", FileStamp(t));
    CleanAppend(s1, ".log");
    var p := s1 + ".log";
    assert p[..7] == "./logs/" by {
      assert p[..7] == s1[..7];
    }
  }

  lemma FileStampClean(t: LocalTime)
    ensures Clean(FileStamp(t))
  {
    var y, m, d := Strings.NatToString(t.year), Strings.NatToString(t.month + 1), Strings.NatToString(t.date);
    var h, mi := Strings.NatToString(t.hours), Strings.NatToString(t.minutes);
    DigitsClean(y);
    DigitsClean(m);
    DigitsClean(d);
    DigitsClean(h);
    DigitsClean(mi);
    CleanAppend(y, "_");
    CleanAppend(y + "_", m);
    CleanAppend(y + "_" + m, "_");
    CleanAppend(y + "_" + m + "_", d);
    CleanAppend(y + "_" + m + "_" + d, "-");
    CleanAppend(y + "_" + m + "_" + d + "-", h);
    CleanAppend(y + "_" + m + "_" + d + "-" + h, "_");
    CleanAppend(y + "_" + m + "_" + d + "-" + h + "_", mi);
  }

  lemma DigitsClean(s: string)
    requires forall i :: 0 <= i < |s| ==> '0' <= s[i] <= '9'
    ensures Clean(s)
  {
  }

  /** `current_time()`: the sanitized UTC time. */
  function CurrentTime(c: Clock): string {
    Sanitize(c.utc)
  }

  /** The line `log` writes: the stamp, then " from <name>" when a watcher is given, then
      " at <time>" when a time is given, then the message. */
  function MessageLine(stamp: string, msg: string, time: Option<string>, watcher: Option<string>): string {
    stamp + ":\tMessage" + FromTag(watcher) + Tag(" at ", time) + (": " + (msg + "\n"))
  }

  /** " from <name>" when a watcher is given, otherwise nothing. */
  function FromTag(watcher: Option<string>): string {
    if watcher.Some? then " from " + watcher.value else ""
  }

  /** The watcher tag comes right after the word "Message" exactly when a watcher is given,
      the time tag comes there exactly when only a time is given, and the message follows
      at once exactly when neither is. */
  lemma MessageLineTags(stamp: string, msg: string, time: Option<string>, watcher: Option<string>)
    ensures var line := MessageLine(stamp, msg, time, watcher);
      && (Strings.IsPrefix(stamp + ":\tMessage" + " from ", line) <==> watcher.Some?)
      && (Strings.IsPrefix(stamp + ":\tMessage" + " at ", line) <==> watcher.None? && Given(time))
      && (Strings.IsPrefix(stamp + ":\tMessage" + ": ", line) <==> watcher.None? && !Given(time))
  {
    if watcher.Some? {
      LineWithWatcher(stamp, msg, time, watcher);
    } else if Given(time) {
      LineWithTimeOnly(stamp, msg, time, watcher);
    } else {
      LineUntagged(stamp, msg, time, watcher);
    }
  }

  lemma LineWithWatcher(stamp: string, msg: string, time: Option<string>, watcher: Option<string>)
    requires watcher.Some?
    ensures var line := MessageLine(stamp, msg, time, watcher);
      && Strings.IsPrefix(stamp + ":\tMessage" + " from ", line)
      && !Strings.IsPrefix(stamp + ":\tMessage" + " at ", line)
      && !Strings.IsPrefix(stamp + ":\tMessage" + ": ", line)
  {
    var head := stamp + ":\tMessage";
    var y := watcher.value + Tag(" at ", time) + (": " + (msg + "\n"));
    assert MessageLine(stamp, msg, time, watcher) == head + (" from " + y);
    Strings.TagAfterHead(head, " from ", y, " at ", 1);
    Strings.TagAfterHead(head, " from ", y, ": ", 0);
  }

  lemma LineWithTimeOnly(stamp: string, msg: string, time: Option<string>, watcher: Option<string>)
    requires watcher.None? && Given(time)
    ensures var line := MessageLine(stamp, msg, time, watcher);
      && Strings.IsPrefix(stamp + ":\tMessage" + " at ", line)
      && !Strings.IsPrefix(stamp + ":\tMessage" + " from ", line)
      && !Strings.IsPrefix(stamp + ":\tMessage" + ": ", line)
  {
    var head := stamp + ":\tMessage";
    var y := time.value + (": " + (msg + "\n"));
    assert MessageLine(stamp, msg, time, watcher) == head + (" at " + y);
    Strings.TagAfterHead(head, " at ", y, " from ", 1);
    Strings.TagAfterHead(head, " at ", y, ": ", 0);
  }

  lemma LineUntagged(stamp: string, msg: string, time: Option<string>, watcher: Option<string>)
    requires watcher.None? && !Given(time)
    ensures var line := MessageLine(stamp, msg, time, watcher);
      && Strings.IsPrefix(stamp + ":\tMessage" + ": ", line)
      && !Strings.IsPrefix(stamp + ":\tMessage" + " from ", line)
      && !Strings.IsPrefix(stamp + ":\tMessage" + " at ", line)
  {
    var head := stamp + ":\tMessage";
    var y := msg + "\n";
    assert MessageLine(stamp, msg, time, watcher) == head + (": " + y);
    Strings.TagAfterHead(head, ": ", y, " from ", 0);
    Strings.TagAfterHead(head, ": ", y, " at ", 0);
  }

  /** The stamp has no colon, so the text before a line's first colon is the stamp. */
  lemma StampRecoverable(c: Clock, msg: string, time: Option<string>, watcher: Option<string>, err: Error)
    ensures Strings.SplitHead(MessageLine(CurrentTime(c), msg, time, watcher), ":") == CurrentTime(c)
    ensures Strings.SplitHead(ErrorLine(CurrentTime(c), err, time, watcher), ":") == CurrentTime(c)
  {
    var stamp := CurrentTime(c);
    StampThenColon(stamp, MessageLine(stamp, msg, time, watcher));
    StampThenColon(stamp, ErrorLine(stamp, err, time, watcher));
  }

  lemma StampThenColon(stamp: string, line: string)
    requires Clean(stamp) && |stamp| < |line| && line[..|stamp|] == stamp && line[|stamp|] == ':'
    ensures Strings.SplitHead(line, ":") == stamp
  {
    var r := Strings.SplitHead(line, ":");
    forall j | 0 <= j < |stamp|
      ensures !Strings.OccursAt(line, ":", j)
    {
      Strings.OccursAtChar(line, ':', j);
      assert line[j] == stamp[j];
    }
    Strings.OccursAtChar(line, ':', |stamp|);
    assert |r| == |stamp|;
    assert line[..|r|] == r;
  }

  /** The line `logError` writes: the stamp in front of the shared error report. */
  function ErrorLine(stamp: string, err: Error, time: Option<string>, watcher: Option<string>): string {
    stamp + ":\t" + ErrorReport(err, time, watcher)
  }

  /** What one call leaves behind: the session and the chunks appended to files. */
  datatype LogWrite = LogWrite(session: Session, appends: seq<Append>)

  /** `DebugLog.log`: start the session if needed, then append the line to the session
      file and to the last-run file. */
  function Log(s: Session, c: Clock, msg: string, time: Option<string>, watcher: Option<string>): (w: LogWrite)
    ensures w.session.started && (s.started ==> w.session == s)
    ensures |w.appends| == 2 && w.appends[0].path == w.session.path && w.appends[1].path == LAST_RUN_PATH
    ensures w.appends[0].text == w.appends[1].text
    ensures Strings.SplitHead(w.appends[0].text, ":") == CurrentTime(c)
    ensures !s.started ==> w.session.path == GenLogPath(c.local)
    ensures w.appends[0].text == MessageLine(CurrentTime(c), msg, time, watcher)
  {
    var session := StartSession(s, GenLogPath(c.local));
    var line := MessageLine(CurrentTime(c), msg, time, watcher);
    StampRecoverable(c, msg, time, watcher, Error("", ""));
    LogWrite(session, [Append(session.path, line), Append(LAST_RUN_PATH, line)])
  }

  /** `DebugLog.logError`: as `log`, with the error report as the line. */
  function LogError(s: Session, c: Clock, err: Error, time: Option<string>, watcher: Option<string>): (w: LogWrite)
    ensures w.session.started && (s.started ==> w.session == s)
    ensures |w.appends| == 2 && w.appends[0].path == w.session.path && w.appends[1].path == LAST_RUN_PATH
    ensures w.appends[0].text == w.appends[1].text
    ensures Strings.SplitHead(w.appends[0].text, ":") == CurrentTime(c)
    ensures !s.started ==> w.session.path == GenLogPath(c.local)
    ensures w.appends[0].text == ErrorLine(CurrentTime(c), err, time, watcher)
  {
    var session := StartSession(s, GenLogPath(c.local));
    var line := ErrorLine(CurrentTime(c), err, time, watcher);
    StampRecoverable(c, "", time, watcher, err);
    LogWrite(session, [Append(session.path, line), Append(LAST_RUN_PATH, line)])
  }

  /** What a reader of the log sees: the written line says " from <name>" right after the
      word "Message" exactly when a watcher was passed, " at <time>" there exactly when only a
      time was, and a first-call session file is the one named after the local time. */
  lemma LogShowsTags(s: Session, c: Clock, msg: string, time: Option<string>, watcher: Option<string>)
    ensures var w := Log(s, c, msg, time, watcher);
      var head := CurrentTime(c) + ":\tMessage";
      && (Strings.IsPrefix(head + " from ", w.appends[0].text) <==> watcher.Some?)
      && (Strings.IsPrefix(head + " at ", w.appends[0].text) <==> watcher.None? && Given(time))
      && (Strings.IsPrefix(head + ": ", w.appends[0].text) <==> watcher.None? && !Given(time))
  {
    MessageLineTags(CurrentTime(c), msg, time, watcher);
  }
}

=== FILE: emailpage.dfy ===
/** `EmailPage.extractCode` of `src/emailpage.ts`: the verification code is the text of the
    e-mail element up to its first space. */
module EmailPage {
  import Strings

  /** `code_text.split(' ')[0]`. */
  function ExtractCode(text: string): (r: string)
    ensures Strings.IsPrefix(r, text)
    ensures forall i :: 0 <= i < |r| ==> r[i] != ' '
    ensures |r| == |text| || text[|r|] == ' '
  {
    SplitAtSpace(text);
    Strings.SplitHead(text, " ")
  }

  /** With a one-space separator, "no occurrence" means "no space character". */
  lemma SplitAtSpace(text: string)
    ensures var r := Strings.SplitHead(text, " ");
      (forall i :: 0 <= i < |r| ==> r[i] != ' ') && (|r| == |text| || text[|r|] == ' ')
  {
    var r := Strings.SplitHead(text, " ");
    forall i | 0 <= i < |r|
      ensures r[i] != ' '
    {
      Strings.OccursAtChar(text, ' ', i);
      assert text[i] == r[i];
    }
    if |r| < |text| {
      Strings.OccursAtChar(text, ' ', |r|);
    }
  }

  /** Text without a space is its own code; text starting with a space gives an empty
      code; and extracting again changes nothing. */
  lemma ExtractCodeCases(text: string)
    ensures (forall i :: 0 <= i < |text| ==> text[i] != ' ') ==> ExtractCode(text) == text
    ensures |text| > 0 && text[0] == ' ' ==> ExtractCode(text) == ""
    ensures ExtractCode(ExtractCode(text)) == ExtractCode(text)
  {
    var r := ExtractCode(text);
    assert text[..|r|] == r;
    var r2 := ExtractCode(r);
    assert r[..|r2|] == r2;
  }
}

=== FILE: errorlog.dfy ===
/** The error log of `src/errorlog.ts`: one file per session, named after the sanitized UTC
    time at which the session started. */
module ErrorLog {
  import opened Wrappers
  import opened LogText
  import Strings

  /** The session path for a given `toUTCString()`. */
  function LogPath(utc: string): string {
    "./logs/" + Sanitize(utc) + ".log"
  }

  /** The path lies under `./logs/`, ends in `.log`, and holds no colon, white space or
      comma, whatever the time string. */
  lemma LogPathShape(utc: string)
    ensures var p := LogPath(utc);
      Strings.IsPrefix("./logs/", p) && p[|p| - 4..] == ".log" && Clean(p)
      && p[7..|p| - 4] == Sanitize(utc)
  {
    var p := LogPath(utc);
    var s1 := "./logs/" + Sanitize(utc);
    CleanAppend("./logs/", Sanitize(utc));
    CleanAppend(s1, ".log");
    assert p[..7] == "./logs/" by {
      assert p[..7] == s1[..7];
    }
  }

  /** What one call leaves behind. */
  datatype LogWrite = LogWrite(session: Session, append: Append)

  /** `ErrorLog.log`: start the session at the first call, then append the error report to
      the session file. */
  function Log(s: Session, utc: string, err: Error, time: Option<string>, watcher: Option<string>): (w: LogWrite)
    ensures w.session.started && (s.started ==> w.session == s)
    ensures !s.started ==> w.session.path == LogPath(utc)
    ensures w.append.path == w.session.path
    ensures Strings.IsPrefix(Opening, w.append.text)
    ensures w.append.text == ErrorReport(err, time, watcher)
  {
    var session := StartSession(s, LogPath(utc));
    var text := ErrorReport(err, time, watcher);
    assert text[..|Opening|] == Opening;
    LogWrite(session, Append(session.path, text))
  }

  /** The appended report names the time right after its opening words exactly when one was
      passed, and the watcher there exactly when only a watcher was. */
  lemma LogShowsTags(s: Session, utc: string, err: Error, time: Option<string>, watcher: Option<string>)
    ensures var text := Log(s, utc, err, time, watcher).append.text;
      && (Strings.IsPrefix(Opening + " at ", text) <==> Given(time))
      && (Strings.IsPrefix(Opening + " for ", text) <==> !Given(time) && watcher.Some?)
      && (Strings.IsPrefix(Opening + ":\n", text) <==> !Given(time) && watcher.None?)
  {
    ErrorReportTags(err, time, watcher);
  }
}

=== FILE: ledger.dfy ===
/** The persisted reward ledger of `src/reward.ts`: the list of saved records, the set of
    their codes for quick duplicate checks, and whether the file has been read yet. The
    file's contents are a parameter (`None` when it does not exist); what is written back
    is always the saved list. */
module Ledger {
  import opened Wrappers
  import opened RewardRecord
  import Seqs

  datatype Ledger = Ledger(saved: seq<Reward>, savedCodes: set<string>, fileChecked: bool)

  /** The static fields before anything is read. */
  const Unread := Ledger([], {}, false)

  /** The code set is in step with the saved list. */
  predicate Consistent(l: Ledger) {
    l.savedCodes == Codes(l.saved)
  }

  /** `Rewards.read`: the saved list is the file's contents, or empty when there is no
      file, and the code set is derived from it. */
  function Read(file: Option<seq<Reward>>): (l: Ledger)
    ensures l.fileChecked && Consistent(l)
    ensures file.None? ==> l.saved == []
    ensures file.Some? ==> l.saved == file.value
  {
    var saved := if file.Some? then file.value else [];
    Ledger(saved, Codes(saved), true)
  }

  /** The incoming records whose codes were not saved before the call, in incoming order,
      each as often as it comes in. */
  function Fresh(incoming: seq<Reward>, codes: set<string>): (r: seq<Reward>)
    ensures forall x :: x in r <==> x in incoming && x.code !in codes
    ensures |r| <= |incoming|
  {
    Seqs.Filter(incoming, (r: Reward) => r.code !in codes)
  }

  /** The ledger `save` works on: the current one, or the file's contents on first use. */
  function Loaded(l: Ledger, file: Option<seq<Reward>>): Ledger {
    if l.fileChecked then l else Read(file)
  }

  /** `Rewards.save`: read the file first if it was never read, drop the incoming records
      whose code was saved before this call, append the rest in order and add their codes.
      Previously saved records keep their places. */
  function Save(l: Ledger, file: Option<seq<Reward>>, incoming: seq<Reward>): (r: Ledger)
    requires l.fileChecked ==> Consistent(l)
    ensures r.fileChecked && Consistent(r)
    ensures var base := Loaded(l, file).saved;
      |base| <= |r.saved| && r.saved[..|base|] == base
    ensures var base := Loaded(l, file);
      && (forall i :: |base.saved| <= i < |r.saved| ==> r.saved[i] in incoming && r.saved[i].code !in base.savedCodes)
      && (forall x :: x in incoming && x.code !in base.savedCodes ==> x in r.saved[|base.saved|..])
      && r.saved[|base.saved|..] == Fresh(incoming, base.savedCodes)
  {
    var base := Loaded(l, file);
    var added := Fresh(incoming, base.savedCodes);
    var saved := base.saved + added;
    CodesAppend(base.saved, added);
    assert saved[..|base.saved|] == base.saved;
    assert saved[|base.saved|..] == added;
    Ledger(saved, base.savedCodes + Codes(added), true)
  }

  /** Before any read, the first save loads the file and appends to its contents. */
  lemma FirstSaveReadsFile(file: Option<seq<Reward>>, incoming: seq<Reward>)
    ensures Save(Unread, file, incoming) == Save(Read(file), file, incoming)
    ensures file.Some? ==> Save(Unread, file, incoming).saved[..|file.value|] == file.value
  {
  }

  lemma CodesAppend(a: seq<Reward>, b: seq<Reward>)
    ensures Codes(a + b) == Codes(a) + Codes(b)
  {
    forall c | c in Codes(a + b)
      ensures c in Codes(a) + Codes(b)
    {
      var i :| 0 <= i < |a + b| && (a + b)[i].code == c;
      if i >= |a| {
        assert b[i - |a|].code == c;
      }
    }
    forall c | c in Codes(a)
      ensures c in Codes(a + b)
    {
      var i :| 0 <= i < |a| && a[i].code == c;
      assert (a + b)[i].code == c;
    }
    forall c | c in Codes(b)
      ensures c in Codes(a + b)
    {
      var i :| 0 <= i < |b| && b[i].code == c;
      assert (a + b)[|a| + i].code == c;
    }
  }

  /** Saving the same records a second time adds nothing. */
  lemma SaveIdempotent(l: Ledger, file: Option<seq<Reward>>, incoming: seq<Reward>)
    requires l.fileChecked ==> Consistent(l)
    ensures var once := Save(l, file, incoming);
      Save(once, file, incoming).saved == once.saved
  {
    var once := Save(l, file, incoming);
    SavedCodesCoverIncoming(l, file, incoming);
    Seqs.FilterNone(incoming, (r: Reward) => r.code !in once.savedCodes);
    assert once.saved + [] == once.saved;
  }

  /** After a save, every incoming code is among the saved codes. */
  lemma SavedCodesCoverIncoming(l: Ledger, file: Option<seq<Reward>>, incoming: seq<Reward>)
    requires l.fileChecked ==> Consistent(l)
    ensures forall i :: 0 <= i < |incoming| ==> incoming[i].code in Save(l, file, incoming).savedCodes
  {
    var once := Save(l, file, incoming);
    var base := Loaded(l, file);
    assert Consistent(base);
    PrefixCodes(base.saved, once.saved);
    forall i | 0 <= i < |incoming|
      ensures incoming[i].code in once.savedCodes
    {
      if incoming[i].code !in base.savedCodes {
        SuffixMember(incoming[i], once.saved, |base.saved|);
      }
    }
  }

  /** The codes of a prefix are codes of the whole list. */
  lemma PrefixCodes(a: seq<Reward>, b: seq<Reward>)
    requires |a| <= |b| && b[..|a|] == a
    ensures Codes(a) <= Codes(b)
  {
    forall c | c in Codes(a)
      ensures c in Codes(b)
    {
      var i :| 0 <= i < |a| && a[i].code == c;
      assert b[i] == b[..|a|][i];
    }
  }

  /** A record in a suffix has its code among the list's codes. */
  lemma SuffixMember(x: Reward, s: seq<Reward>, k: nat)
    requires k <= |s| && x in s[k..]
    ensures x.code in Codes(s)
  {
    var j :| 0 <= j < |s[k..]| && s[k..][j] == x;
    assert s[k + j] == x;
  }

  /** Code uniqueness survives a save, provided the incoming list has no duplicate codes of
      its own. */
  lemma SavePreservesUniqueCodes(l: Ledger, file: Option<seq<Reward>>, incoming: seq<Reward>)
    requires l.fileChecked ==> Consistent(l)
    requires UniqueCodes(Loaded(l, file).saved) && UniqueCodes(incoming)
    ensures UniqueCodes(Save(l, file, incoming).saved)
  {
    var base := Loaded(l, file);
    var added := Fresh(incoming, base.savedCodes);
    FreshUnique(incoming, base.savedCodes);
    var saved := base.saved + added;
    forall i, j | 0 <= i < j < |saved|
      ensures saved[i].code != saved[j].code
    {
      if j >= |base.saved| && i < |base.saved| {
        assert saved[j] == added[j - |base.saved|];
        assert saved[i].code in base.savedCodes;
      } else if i >= |base.saved| {
        assert saved[i] == added[i - |base.saved|];
        assert saved[j] == added[j - |base.saved|];
      }
    }
  }

  /** Filtering keeps a duplicate-free list duplicate-free. */
  lemma {:induction false} FreshUnique(incoming: seq<Reward>, codes: set<string>)
    requires UniqueCodes(incoming)
    ensures UniqueCodes(Fresh(incoming, codes))
    decreases |incoming|
  {
    if |incoming| > 0 {
      FreshUnique(incoming[1..], codes);
      var rest := Fresh(incoming[1..], codes);
      forall k | 0 <= k < |rest|
        ensures rest[k].code != incoming[0].code
      {
        assert rest[k] in incoming[1..];
      }
    }
  }

  /** Only codes saved before the call are filtered: two incoming records with the same new
      code are both appended. */
  lemma DuplicateWithinOneSave(r: Reward)
    ensures Save(Read(None), None, [r, r]).saved == [r, r]
  {
    var l := Read(None);
    assert Fresh([r, r], {}) == [r, r];
  }
}

=== FILE: logtext.dfy ===
/** What `src/debuglog.ts` and `src/errorlog.ts` share: the `sanitize` helper that both
    files define identically, and the once-only start of a log session. The two files pick
    the session's path differently, so the path is a parameter here. */
module LogText {
  import Wrappers
  import Strings

  /** The characters JavaScript's `\s` matches: the ECMAScript white space and line
      terminators. */
  predicate IsWhitespace(c: char) {
    || c == '\t' || c == '\n' || c == '\U{000B}' || c == '\U{000C}' || c == '\r' || c == ' '
    || c == '\U{00A0}' || c == '\U{1680}' || ('\U{2000}' <= c <= '\U{200A}')
    || c == '\U{2028}' || c == '\U{2029}' || c == '\U{202F}' || c == '\U{205F}'
    || c == '\U{3000}' || c == '\U{FEFF}'
  }

  /** A character `sanitize` would change or drop. */
  predicate Unsafe(c: char) {
    IsWhitespace(c) || c == ':' || c == ','
  }

  predicate Clean(s: string) {
    forall i :: 0 <= i < |s| ==> !Unsafe(s[i])
  }

  lemma CleanAppend(a: string, b: string)
    requires Clean(a) && Clean(b)
    ensures Clean(a + b)
  {
    forall i | 0 <= i < |a + b|
      ensures !Unsafe((a + b)[i])
    {
      if i >= |a| {
        assert (a + b)[i] == b[i - |a|];
      }
    }
  }

  /** `sanitize`: every white-space character and every colon becomes `_`, and commas are
      deleted; everything else is kept in order. */
  function Sanitize(s: string): (r: string)
    ensures Clean(r)
    ensures |r| <= |s|
    decreases |s|
  {
    if |s| == 0 then ""
    else
      var rest := Sanitize(s[1..]);
      if s[0] == ',' then rest
      else if IsWhitespace(s[0]) || s[0] == ':' then "_" + rest
      else [s[0]] + rest
  }

  /** What `sanitize` does to one character: a comma is deleted, white space and a colon
      become `_`, and anything else is kept. */
  lemma SanitizeChar(c: char)
    ensures Sanitize([c]) == if c == ',' then "" else if IsWhitespace(c) || c == ':' then "_" else [c]
  {
  }

  /** Sanitizing works character by character, so it distributes over concatenation. */
  lemma {:induction false} SanitizeAppend(a: string, b: string)
    ensures Sanitize(a + b) == Sanitize(a) + Sanitize(b)
    decreases |a|
  {
    if |a| == 0 {
      assert a + b == b;
    } else {
      assert (a + b)[0] == a[0];
      assert (a + b)[1..] == a[1..] + b;
      SanitizeAppend(a[1..], b);
      var head := if a[0] == ',' then "" else if IsWhitespace(a[0]) || a[0] == ':' then "_" else [a[0]];
      assert Sanitize(a) == head + Sanitize(a[1..]);
      assert Sanitize(a + b) == head + Sanitize(a[1..] + b);
      Strings.Assoc(head, Sanitize(a[1..]), Sanitize(b));
    }
  }

  /** A string without white space, colons or commas is left as it is. */
  lemma {:induction false} SanitizeKeepsClean(s: string)
    requires Clean(s)
    ensures Sanitize(s) == s
    decreases |s|
  {
    if |s| > 0 {
      SanitizeKeepsClean(s[1..]);
    }
  }

  /** `sanitize` is idempotent. */
  lemma SanitizeIdempotent(s: string)
    ensures Sanitize(Sanitize(s)) == Sanitize(s)
  {
    SanitizeKeepsClean(Sanitize(s));
  }

  /** The number of commas in a string. */
  function Commas(s: string): nat
    decreases |s|
  {
    if |s| == 0 then 0 else (if s[0] == ',' then 1 else 0) + Commas(s[1..])
  }

  /** Exactly the commas are dropped: the length shrinks by their number. */
  lemma {:induction false} SanitizeLength(s: string)
    ensures |Sanitize(s)| == |s| - Commas(s)
    decreases |s|
  {
    if |s| > 0 {
      SanitizeLength(s[1..]);
    }
  }

  // ---------------------------------------------------------------------------------
  // Log session.

  /** The static `session_started` flag and `log_filepath` of a log class. */
  datatype Session = Session(started: bool, path: string)

  const NotStarted := Session(false, "")

  /** `start_session`: the first call fixes the log path to `candidate`, the path the
      clock gives at that moment; later calls change nothing. */
  function StartSession(s: Session, candidate: string): (r: Session)
    ensures r.started
    ensures s.started ==> r == s
    ensures !s.started ==> r.path == candidate
  {
    if s.started then s else Session(true, candidate)
  }

  /** A run of calls, one candidate path per call. */
  function StartAll(s: Session, candidates: seq<string>): Session
    decreases |candidates|
  {
    if |candidates| == 0 then s else StartAll(StartSession(s, candidates[0]), candidates[1..])
  }

  /** However many calls follow, the path is the one chosen by the first call, and the
      flag never goes back to false. */
  lemma {:induction false} SessionPathFixedOnce(candidates: seq<string>)
    requires |candidates| > 0
    ensures StartAll(NotStarted, candidates) == Session(true, candidates[0])
  {
    StartedStays(StartSession(NotStarted, candidates[0]), candidates[1..]);
  }

  lemma {:induction false} StartedStays(s: Session, candidates: seq<string>)
    requires s.started
    ensures StartAll(s, candidates) == s
    decreases |candidates|
  {
    if |candidates| > 0 {
      StartedStays(StartSession(s, candidates[0]), candidates[1..]);
    }
  }

  /** One appended chunk of a log file. */
  datatype Append = Append(path: string, text: string)

  /** A JavaScript `time ? … : ''` test: an absent or empty string is falsy. */
  predicate Given(t: Wrappers.Option<string>) {
    t.Some? && t.value != ""
  }

  /** `label + value` when the value is given, otherwise nothing. */
  function Tag(prefix: string, v: Wrappers.Option<string>): string {
    if Given(v) then prefix + v.value else ""
  }

  /** A thrown error's message and stack trace. */
  datatype Error = Error(message: string, stack: string)

  /** The words every error report opens with. */
  const Opening := "Following error occured"

  /** The error report both log classes write (the debug log puts a timestamp in front):
      the time tag when a time is given, then the watcher tag when a watcher is given, then
      the message and the stack. */
  function ErrorReport(err: Error, time: Wrappers.Option<string>, watcher: Wrappers.Option<string>): string {
    Opening + Tag(" at ", time) + WatcherTag(watcher) + Trace(err)
  }

  /** " for <name>" when a watcher is given, otherwise nothing. */
  function WatcherTag(watcher: Wrappers.Option<string>): string {
    if watcher.Some? then " for " + watcher.value else ""
  }

  /** The colon, the message and the stack that end every report. */
  function Trace(err: Error): string {
    ":\n" + (err.message + "\n" + err.stack + "\n")
  }

  /** The report says " at <time>" right after its opening words exactly when a time is
      given, " for <name>" there exactly when only a watcher is given, and goes straight to
      the message exactly when neither is. */
  lemma ErrorReportTags(err: Error, time: Wrappers.Option<string>, watcher: Wrappers.Option<string>)
    ensures var line := ErrorReport(err, time, watcher);
      && (Strings.IsPrefix(Opening + " at ", line) <==> Given(time))
      && (Strings.IsPrefix(Opening + " for ", line) <==> !Given(time) && watcher.Some?)
      && (Strings.IsPrefix(Opening + ":\n", line) <==> !Given(time) && watcher.None?)
  {
    if Given(time) {
      ReportWithTime(err, time, watcher);
    } else if watcher.Some? {
      ReportWithWatcherOnly(err, time, watcher);
    } else {
      ReportUntagged(err, time, watcher);
    }
  }

  lemma ReportWithTime(err: Error, time: Wrappers.Option<string>, watcher: Wrappers.Option<string>)
    requires Given(time)
    ensures var line := ErrorReport(err, time, watcher);
      && Strings.IsPrefix(Opening + " at ", line)
      && !Strings.IsPrefix(Opening + " for ", line)
      && !Strings.IsPrefix(Opening + ":\n", line)
  {
    var rest := WatcherTag(watcher) + Trace(err);
    var y := time.value + rest;
    Strings.Assoc(Opening + Tag(" at ", time), WatcherTag(watcher), Trace(err));
    Strings.Assoc(Opening, " at " + time.value, rest);
    Strings.Assoc(" at ", time.value, rest);
    Strings.TagAfterHead(Opening, " at ", y, " for ", 1);
    Strings.TagAfterHead(Opening, " at ", y, ":\n", 0);
  }

  lemma ReportWithWatcherOnly(err: Error, time: Wrappers.Option<string>, watcher: Wrappers.Option<string>)
    requires !Given(time) && watcher.Some?
    ensures var line := ErrorReport(err, time, watcher);
      && Strings.IsPrefix(Opening + " for ", line)
      && !Strings.IsPrefix(Opening + " at ", line)
      && !Strings.IsPrefix(Opening + ":\n", line)
  {
    var y := watcher.value + Trace(err);
    assert Opening + Tag(" at ", time) == Opening;
    Strings.Assoc(Opening, " for " + watcher.value, Trace(err));
    Strings.Assoc(" for ", watcher.value, Trace(err));
    Strings.TagAfterHead(Opening, " for ", y, " at ", 1);
    Strings.TagAfterHead(Opening, " for ", y, ":\n", 0);
  }

  lemma ReportUntagged(err: Error, time: Wrappers.Option<string>, watcher: Wrappers.Option<string>)
    requires !Given(time) && watcher.None?
    ensures var line := ErrorReport(err, time, watcher);
      && Strings.IsPrefix(Opening + ":\n", line)
      && !Strings.IsPrefix(Opening + " at ", line)
      && !Strings.IsPrefix(Opening + " for ", line)
  {
    var y := err.message + "\n" + err.stack + "\n";
    assert Trace(err) == ":\n" + y;
    assert ErrorReport(err, time, watcher) == Opening + (":\n" + y);
    Strings.TagAfterHead(Opening, ":\n", y, " at ", 0);
    Strings.TagAfterHead(Opening, ":\n", y, " for ", 0);
  }

  /** With both a time and a watcher, the time tag comes first and the watcher tag right
      after it. */
  lemma ErrorReportBothTags(err: Error, time: Wrappers.Option<string>, watcher: Wrappers.Option<string>)
    requires Given(time) && watcher.Some?
    ensures Strings.IsPrefix(Opening + " at " + time.value + " for " + watcher.value + ":\n",
                             ErrorReport(err, time, watcher))
  {
    var tags := Opening + " at " + time.value + " for " + watcher.value;
    var body := err.message + "\n" + err.stack + "\n";
    assert Opening + Tag(" at ", time) == Opening + " at " + time.value;
    assert Opening + Tag(" at ", time) + WatcherTag(watcher) == tags;
    assert ErrorReport(err, time, watcher) == tags + (":\n" + body);
    assert (tags + (":\n" + body))[..|tags + ":\n"|] == tags + ":\n";
  }
}

=== FILE: reward_record.dfy ===
/** The reward record shared by `src/reward.ts` (which appends records to `rewards.json`)
    and `rewards.py` (which reads and claims them), and its JSON object form. */
module RewardRecord {
  import opened Wrappers

  datatype Reward = Reward(code: string, name: string, claimed: bool)

  /** The JSON values a record's fields can hold. */
  datatype Json = JString(s: string) | JBool(b: bool) | JNumber(n: int) | JNull

  type JsonObject = map<string, Json>

  /** The set of codes of a list of records. */
  function Codes(rs: seq<Reward>): (cs: set<string>)
    ensures forall i :: 0 <= i < |rs| ==> rs[i].code in cs
    ensures forall c :: c in cs ==> exists i :: 0 <= i < |rs| && rs[i].code == c
  {
    set i | 0 <= i < |rs| :: rs[i].code
  }

  /** No two records of the list share a code. */
  predicate UniqueCodes(rs: seq<Reward>) {
    forall i, j :: 0 <= i < j < |rs| ==> rs[i].code != rs[j].code
  }

  /** `Reward.to_dict`: one entry per dataclass field. */
  function ToDict(r: Reward): (o: JsonObject)
    ensures o.Keys == {"code", "name", "claimed"}
  {
    map["code" := JString(r.code), "name" := JString(r.name), "claimed" := JBool(r.claimed)]
  }

  datatype JsonError = MissingKey(key: string) | WrongType(key: string)

  /** `Reward.from_json`: reads the three fields in declaration order, ignoring every
      other key; a missing field raises `KeyError` for the first one missing. */
  function FromJson(o: JsonObject): (r: Result<Reward, JsonError>)
    ensures r.Success? <==> ("code" in o && "name" in o && "claimed" in o
      && o["code"].JString? && o["name"].JString? && o["claimed"].JBool?)
    ensures r.Failure? && r.error.MissingKey? ==> r.error.key !in o
    ensures "code" !in o ==> r == Failure(MissingKey("code"))
    ensures "code" in o && "name" !in o ==> r == Failure(MissingKey("name"))
    ensures "code" in o && "name" in o && "claimed" !in o ==> r == Failure(MissingKey("claimed"))
  {
    if "code" !in o then Failure(MissingKey("code"))
    else if "name" !in o then Failure(MissingKey("name"))
    else if "claimed" !in o then Failure(MissingKey("claimed"))
    else if !o["code"].JString? then Failure(WrongType("code"))
    else if !o["name"].JString? then Failure(WrongType("name"))
    else if !o["claimed"].JBool? then Failure(WrongType("claimed"))
    else Success(Reward(o["code"].s, o["name"].s, o["claimed"].b))
  }

  /** Reading back what `to_dict` wrote gives the same record. */
  lemma FromJsonToDict(r: Reward)
    ensures FromJson(ToDict(r)) == Success(r)
  {
  }

  /** Conversely, a record read from an object writes back exactly that object's three
      fields; extra keys are dropped. */
  lemma ToDictFromJson(o: JsonObject)
    requires FromJson(o).Success?
    ensures ToDict(FromJson(o).value) == map k | k in o && k in {"code", "name", "claimed"} :: o[k]
  {
  }
}

=== FILE: schedule.dfy ===
/** The event scheduler and the live-status cache of `src/schedule.ts`. Timestamps are
    integer milliseconds; the clock, the fetched schedule and the result of the live-status
    query are parameters, and every `setTimeout` becomes a returned `Timer` record. */
module Schedule {
  import opened Wrappers
  import Seqs

  /** How long a cached live status stays fresh: 10 minutes. */
  const ONLINE_REFRESH_INTERVAL: int := 10 * 60 * 1000
  /** The arming horizon: one week. */
  const MS_IN_WEEK: int := 7 * 24 * 60 * 60 * 1000

  /** One segment of the broadcaster's schedule, with its times already parsed. */
  datatype Event = Event(id: string, start: int, end: int, title: string)

  /** What a timer does when it fires. */
  datatype TimerAction =
    | RunMode(streamEnd: int)   // configure the stream end, then run the configured mode
    | ForgetStart(start: int)   // remove the start from the dedup set

  datatype Timer = Timer(delay: nat, action: TimerAction)

  /** The outcome of one scheduling cycle. */
  datatype Arming =
    | Idle
    | Armed(event: Event, fire: Timer, cleanup: Timer)

  datatype Cycle = Cycle(scheduled: set<int>, arming: Arming)

  /** `Math.max(t - now, 0)`: the delay before time `t`, never negative. */
  function DelayUntil(t: int, now: int): (d: nat)
    ensures now + d >= t
    ensures d == 0 || now + d == t
    ensures d == 0 <==> t <= now
  {
    if t - now > 0 then t - now else 0
  }

  /** An event survives all three filters of a cycle: it has not ended, its start is not
      armed yet, and it starts less than a week from now. */
  predicate Eligible(now: int, scheduled: set<int>, e: Event) {
    e.end >= now && e.start !in scheduled && e.start - now < MS_IN_WEEK
  }

  /** The three filters, applied one after the other as the source does. */
  function Survivors(events: seq<Event>, now: int, scheduled: set<int>): seq<Event> {
    var notOver := Seqs.Filter(events, (e: Event) => e.end >= now);
    var notArmed := Seqs.Filter(notOver, (e: Event) => e.start !in scheduled);
    Seqs.Filter(notArmed, (e: Event) => e.start - now < MS_IN_WEEK)
  }

  /** The three successive filters keep exactly the eligible events, in fetched order. */
  lemma {:induction false} SurvivorsAreEligible(events: seq<Event>, now: int, scheduled: set<int>)
    ensures Survivors(events, now, scheduled) == Seqs.Filter(events, e => Eligible(now, scheduled, e))
    decreases |events|
  {
    if |events| > 0 {
      SurvivorsAreEligible(events[1..], now, scheduled);
    }
  }

  /** One run of `scheduleActions` on the fetched `events` at time `now`: drop the events
      that are over, already armed, or a week or more away; arm the first survivor in
      fetched order (not necessarily the earliest), remember its start, and schedule the
      removal of that start at the event's end. */
  function ScheduleActions(events: seq<Event>, now: int, scheduled: set<int>): (c: Cycle)
    ensures c.arming.Idle? <==> forall i :: 0 <= i < |events| ==> !Eligible(now, scheduled, events[i])
    ensures c.arming.Idle? ==> c.scheduled == scheduled
    ensures c.arming.Armed? ==>
      var e := c.arming.event;
      && (exists i :: Seqs.IsFirst(events, x => Eligible(now, scheduled, x), i) && events[i] == e)
      && e.start !in scheduled
      && c.scheduled == scheduled + {e.start}
      && c.arming.fire == Timer(DelayUntil(e.start, now), RunMode(e.end))
      && c.arming.cleanup == Timer(DelayUntil(e.end, now), ForgetStart(e.start))
  {
    var survivors := Survivors(events, now, scheduled);
    SurvivorsAreEligible(events, now, scheduled);
    var p := (x: Event) => Eligible(now, scheduled, x);
    if |survivors| == 0 then
      assert forall i :: 0 <= i < |events| ==> !Eligible(now, scheduled, events[i]) by {
        Seqs.FilterEmpty(events, p);
      }
      Cycle(scheduled, Idle)
    else
      var e := survivors[0];
      Seqs.FilterHead(events, p);
      Cycle(scheduled + {e.start},
            Armed(e, Timer(DelayUntil(e.start, now), RunMode(e.end)),
                     Timer(DelayUntil(e.end, now), ForgetStart(e.start))))
  }

  /** The cleanup timer's effect on the dedup set. */
  function Forget(scheduled: set<int>, start: int): (s: set<int>)
    ensures start !in s
    ensures forall t :: t in scheduled && t != start ==> t in s
    ensures s <= scheduled
  {
    scheduled - {start}
  }

  // ---------------------------------------------------------------------------------
  // Scheduler life over time: refresh cycles interleaved with cleanup timers firing.

  datatype Happening =
    | Refresh(now: int, fetched: seq<Event>)   // `scheduleActions` runs
    | CleanupFires(k: nat)                     // the k-th outstanding cleanup timer fires

  /** Dedup set plus the starts whose cleanup timers are still outstanding. */
  datatype SchedulerLife = SchedulerLife(scheduled: set<int>, outstanding: seq<int>)

  predicate Distinct(s: seq<int>) {
    forall i, j :: 0 <= i < j < |s| ==> s[i] != s[j]
  }

  /** The dedup set is exactly the set of starts with an outstanding timer pair, and no two
      outstanding pairs share a start. */
  predicate Coherent(l: SchedulerLife) {
    Distinct(l.outstanding) && l.scheduled == (set i | 0 <= i < |l.outstanding| :: l.outstanding[i])
  }

  function RemoveAt(s: seq<int>, k: nat): seq<int>
    requires k < |s|
  {
    s[..k] + s[k + 1..]
  }

  function Step(l: SchedulerLife, h: Happening): SchedulerLife {
    match h
    case Refresh(now, fetched) =>
      var c := ScheduleActions(fetched, now, l.scheduled);
      if c.arming.Armed? then SchedulerLife(c.scheduled, l.outstanding + [c.arming.event.start])
      else SchedulerLife(c.scheduled, l.outstanding)
    case CleanupFires(k) =>
      if k < |l.outstanding| then
        SchedulerLife(Forget(l.scheduled, l.outstanding[k]), RemoveAt(l.outstanding, k))
      else l
  }

  function Run(l: SchedulerLife, hs: seq<Happening>): SchedulerLife
    decreases |hs|
  {
    if |hs| == 0 then l else Run(Step(l, hs[0]), hs[1..])
  }

  /** One step keeps the dedup set coherent with the outstanding timers. */
  lemma StepCoherent(l: SchedulerLife, h: Happening)
    requires Coherent(l)
    ensures Coherent(Step(l, h))
  {
    match h
    case Refresh(now, fetched) =>
      var c := ScheduleActions(fetched, now, l.scheduled);
      if c.arming.Armed? {
        var o := l.outstanding + [c.arming.event.start];
        assert forall i :: 0 <= i < |l.outstanding| ==> o[i] == l.outstanding[i];
        assert (set i | 0 <= i < |o| :: o[i]) == l.scheduled + {c.arming.event.start} by {
          forall t | t in l.scheduled + {c.arming.event.start}
            ensures t in (set i | 0 <= i < |o| :: o[i])
          {
            if t in l.scheduled {
              var i :| 0 <= i < |l.outstanding| && l.outstanding[i] == t;
              assert o[i] == t;
            } else {
              assert o[|o| - 1] == t;
            }
          }
        }
      }
    case CleanupFires(k) =>
      if k < |l.outstanding| {
        var s := l.outstanding;
        var o := RemoveAt(s, k);
        assert forall i :: 0 <= i < k ==> o[i] == s[i];
        assert forall i :: k <= i < |o| ==> o[i] == s[i + 1];
        assert (set i | 0 <= i < |o| :: o[i]) == l.scheduled - {s[k]} by {
          forall t | t in l.scheduled - {s[k]}
            ensures t in (set i | 0 <= i < |o| :: o[i])
          {
            var i :| 0 <= i < |s| && s[i] == t;
            if i < k {
              assert o[i] == t;
            } else {
              assert o[i - 1] == t;
            }
          }
        }
      }
  }

  /** No two armed timer pairs share a start timestamp at any moment of the scheduler's
      life, whatever schedule is fetched and whenever cleanups fire. */
  lemma {:induction false} RunCoherent(l: SchedulerLife, hs: seq<Happening>)
    requires Coherent(l)
    ensures Coherent(Run(l, hs))
    decreases |hs|
  {
    if |hs| > 0 {
      StepCoherent(l, hs[0]);
      RunCoherent(Step(l, hs[0]), hs[1..]);
    }
  }

  /** An event fetched again in a later cycle is ignored while its start stays in the
      dedup set, even when the second fetch is otherwise identical. */
  lemma SecondCycleIgnoresArmedStart(events: seq<Event>, now: int, later: seq<Event>, now': int, scheduled: set<int>)
    requires ScheduleActions(events, now, scheduled).arming.Armed?
    ensures
      var c := ScheduleActions(events, now, scheduled);
      var c' := ScheduleActions(later, now', c.scheduled);
      c'.arming.Armed? ==> c'.arming.event.start != c.arming.event.start
  {
  }

  /** An event whose end is exactly now, not yet armed and less than a week away is still
      armed; one starting exactly a week from now is not. */
  lemma HorizonBoundaries(e: Event, now: int)
    ensures e.end == now && e.start - now < MS_IN_WEEK ==> ScheduleActions([e], now, {}).arming.Armed?
    ensures e.start == now + MS_IN_WEEK ==> ScheduleActions([e], now, {}).arming.Idle?
  {
    if e.end == now && e.start - now < MS_IN_WEEK {
      assert Eligible(now, {}, e);
    }
  }

  /** The armed event need not be the earliest survivor: with a later event fetched first,
      the later one is armed. */
  lemma ArmsFirstNotEarliest()
    ensures
      var late := Event("b", 2000, 3000, "late");
      var early := Event("a", 1000, 3000, "early");
      ScheduleActions([late, early], 0, {}).arming.Armed? &&
      ScheduleActions([late, early], 0, {}).arming.event == late
  {
    var late := Event("b", 2000, 3000, "late");
    var early := Event("a", 1000, 3000, "early");
    var c := ScheduleActions([late, early], 0, {});
    assert Eligible(0, {}, late);
    var e := c.arming.event;
    var i :| Seqs.IsFirst([late, early], x => Eligible(0, {}, x), i) && [late, early][i] == e;
    assert i == 0;
  }

  // ---------------------------------------------------------------------------------
  // Live-status cache.

  /** What the GraphQL live-status query gave: the stream object exists or not, or the
      request failed. */
  datatype Query = Live(streaming: bool) | QueryFailed

  /** `#online` and `#onlineLastUpdated`; `None` is the field's initial `undefined`. */
  datatype OnlineCache = OnlineCache(online: bool, lastUpdated: Option<int>)

  const InitialCache := OnlineCache(false, None)

  /** The cache must be refreshed: never updated (the JavaScript test `!lastUpdated` also
      holds of 0), or strictly more than 10 minutes old. */
  predicate Stale(c: OnlineCache, now: int) {
    c.lastUpdated.None? || c.lastUpdated.value == 0 || now - c.lastUpdated.value > ONLINE_REFRESH_INTERVAL
  }

  datatype Answer = Answer(cache: OnlineCache, live: Result<bool, string>)

  /** `Scheduler.isStreaming()` at time `now`; `q` is what the query would return if it
      were issued. The timestamp is written before the query, so a failed query still
      counts as a refresh. */
  function IsStreaming(c: OnlineCache, now: int, q: Query): (a: Answer)
    ensures !Stale(c, now) ==> a == Answer(c, Success(c.online))
    ensures Stale(c, now) ==> a.cache.lastUpdated == Some(now)
    ensures Stale(c, now) && q.Live? ==> a.live == Success(q.streaming) && a.cache.online == q.streaming
    ensures Stale(c, now) && q.QueryFailed? ==> a.live.Failure? && a.cache.online == c.online
  {
    if Stale(c, now) then
      var c' := c.(lastUpdated := Some(now));
      match q
      case Live(b) => Answer(c'.(online := b), Success(b))
      case QueryFailed => Answer(c', Failure("live-status query failed"))
    else Answer(c, Success(c.online))
  }

  /** The first call always queries: the cache starts out never updated. */
  lemma FirstCallQueries(now: int, q: Query)
    ensures IsStreaming(InitialCache, now, q).cache.lastUpdated == Some(now)
    ensures q.Live? ==> IsStreaming(InitialCache, now, q).live == Success(q.streaming)
    ensures q.QueryFailed? ==> IsStreaming(InitialCache, now, q).live.Failure?
  {
  }

  /** With a clock that does not run backwards and a non-zero time, the cache after a call
      is at most 10 minutes old. */
  lemma CacheStalenessBound(c: OnlineCache, now: int, q: Query)
    requires now > 0
    requires c.lastUpdated.Some? ==> c.lastUpdated.value <= now
    ensures
      var a := IsStreaming(c, now, q);
      a.cache.lastUpdated.Some? && 0 <= now - a.cache.lastUpdated.value <= ONLINE_REFRESH_INTERVAL
  {
  }

  /** A call within 10 minutes of a failed query does not retry: it answers the value that
      was cached before the failure. */
  lemma FailedQueryStillRefreshes(c: OnlineCache, now: int, later: int, q: Query)
    requires now > 0 && Stale(c, now)
    requires now <= later <= now + ONLINE_REFRESH_INTERVAL
    ensures
      var a := IsStreaming(c, now, QueryFailed);
      IsStreaming(a.cache, later, q).live == Success(c.online)
  {
  }

  /** `Scheduler.sleepUntil(t)`: how long the caller sleeps at time `now`. */
  function SleepUntil(t: int, now: int): (d: nat)
    ensures now + d == if t > now then t else now
  {
    DelayUntil(t, now)
  }
}

=== FILE: seqs.dfy ===
/** Order-preserving filtering of sequences, the `Array.prototype.filter` of the model. */
module Seqs {

  /** The elements of `s` that satisfy `p`, in their original order. */
  function Filter<T>(s: seq<T>, p: T -> bool): (r: seq<T>)
    ensures |r| <= |s|
    ensures forall i :: 0 <= i < |r| ==> r[i] in s && p(r[i])
    ensures forall i :: 0 <= i < |s| && p(s[i]) ==> s[i] in r
    decreases |s|
  {
    if |s| == 0 then []
    else if p(s[0]) then [s[0]] + Filter(s[1..], p)
    else Filter(s[1..], p)
  }

  /** `i` is the position of the first element of `s` that satisfies `p`. */
  predicate IsFirst<T>(s: seq<T>, p: T -> bool, i: int) {
    0 <= i < |s| && p(s[i]) && forall j :: 0 <= j < i ==> !p(s[j])
  }

  /** The head of a filtered sequence is the first element of the input that passes. */
  lemma {:induction false} FilterHead<T>(s: seq<T>, p: T -> bool)
    requires Filter(s, p) != []
    ensures exists i :: IsFirst(s, p, i) && s[i] == Filter(s, p)[0]
    decreases |s|
  {
    if p(s[0]) {
      assert IsFirst(s, p, 0);
    } else {
      FilterHead(s[1..], p);
      var i :| IsFirst(s[1..], p, i) && s[1..][i] == Filter(s[1..], p)[0];
      assert IsFirst(s, p, i + 1);
    }
  }

  /** Filtering distributes over concatenation. */
  lemma {:induction false} FilterAppend<T>(a: seq<T>, b: seq<T>, p: T -> bool)
    ensures Filter(a + b, p) == Filter(a, p) + Filter(b, p)
    decreases |a|
  {
    if |a| == 0 {
      assert a + b == b;
    } else {
      assert (a + b)[1..] == a[1..] + b;
      FilterAppend(a[1..], b, p);
    }
  }

  /** A filter that rejects every element returns the empty sequence. */
  lemma {:induction false} FilterNone<T>(s: seq<T>, p: T -> bool)
    requires forall i :: 0 <= i < |s| ==> !p(s[i])
    ensures Filter(s, p) == []
  {
    if |s| > 0 {
      FilterNone(s[1..], p);
    }
  }

  /** An empty filter result means no element passes. */
  lemma FilterEmpty<T>(s: seq<T>, p: T -> bool)
    requires Filter(s, p) == []
    ensures forall i :: 0 <= i < |s| ==> !p(s[i])
  {
  }

  /** The number of elements of `s` that satisfy `p`. */
  function CountWhere<T>(s: seq<T>, p: T -> bool): (n: nat)
    ensures n <= |s|
    decreases |s|
  {
    if |s| == 0 then 0
    else (if p(s[0]) then 1 else 0) + CountWhere(s[1..], p)
  }

  /** Counting distributes over concatenation. */
  lemma {:induction false} CountWhereAppend<T>(a: seq<T>, b: seq<T>, p: T -> bool)
    ensures CountWhere(a + b, p) == CountWhere(a, p) + CountWhere(b, p)
    decreases |a|
  {
    if |a| == 0 {
      assert a + b == b;
    } else {
      assert (a + b)[1..] == a[1..] + b;
      CountWhereAppend(a[1..], b, p);
    }
  }
}

=== FILE: strings.dfy ===
/** String helpers for JavaScript's `String.prototype.split(sep)[0]` and for rendering
    numbers in template literals. Strings are sequences of characters. */
module Strings {

  /** `sep` starts at position `j` of `s`. */
  predicate OccursAt(s: string, sep: string, j: int) {
    0 <= j && j + |sep| <= |s| && s[j..j + |sep|] == sep
  }

  predicate IsPrefix(p: string, s: string) {
    |p| <= |s| && s[..|p|] == p
  }

  /** `s.split(sep)[0]`: the part of `s` before the first occurrence of `sep`, or all of
      `s` when `sep` does not occur. The separators used by the program are non-empty
      literals. */
  function SplitHead(s: string, sep: string): (r: string)
    requires |sep| > 0
    ensures IsPrefix(r, s)
    ensures forall j :: 0 <= j < |r| ==> !OccursAt(s, sep, j)
    ensures |r| == |s| || OccursAt(s, sep, |r|)
    decreases |s|
  {
    if |s| < |sep| then s
    else if s[..|sep|] == sep then ""
    else
      var rest := SplitHead(s[1..], sep);
      ShiftOccurrences(s, sep, |rest|);
      assert !OccursAt(s, sep, 0) by { assert s[0..|sep|] == s[..|sep|]; }
      [s[0]] + rest
  }

  /** Occurrences in `s[1..]` are occurrences in `s`, one position later. */
  lemma ShiftOccurrences(s: string, sep: string, n: nat)
    requires 0 < |s| && n <= |s| - 1
    ensures forall j :: 1 <= j <= n + 1 ==> (OccursAt(s, sep, j) <==> OccursAt(s[1..], sep, j - 1))
  {
    forall j | 1 <= j <= n + 1
      ensures OccursAt(s, sep, j) <==> OccursAt(s[1..], sep, j - 1)
    {
      if j + |sep| <= |s| {
        var a, b := s[j..j + |sep|], s[1..][j - 1..j - 1 + |sep|];
        assert |a| == |b|;
        assert forall k :: 0 <= k < |a| ==> a[k] == s[j + k] == b[k];
        assert a == b;
      }
    }
  }

  /** For a one-character separator, occurrence is a character test. */
  lemma OccursAtChar(s: string, c: char, j: int)
    requires 0 <= j < |s|
    ensures OccursAt(s, [c], j) <==> s[j] == c
  {
    if s[j] == c {
      assert s[j..j + 1] == [c];
    }
  }

  lemma Assoc(a: string, b: string, c: string)
    ensures (a + b) + c == a + (b + c)
  {
  }

  /** After a common head, the string continues with `p` and so not with a `q` that
      differs from `p` at position `k`. */
  lemma TagAfterHead(head: string, p: string, y: string, q: string, k: nat)
    requires k < |p| && k < |q| && p[k] != q[k]
    ensures IsPrefix(head + p, head + (p + y))
    ensures !IsPrefix(head + q, head + (p + y))
  {
    assert (head + (p + y))[..|head + p|] == head + p;
    assert (head + (p + y))[|head| + k] == p[k];
  }

  /** The decimal digit for `d`. */
  function Digit(d: nat): char
    requires d < 10
  {
    ('0' as int + d) as char
  }

  /** Decimal rendering of a natural number, as a template literal prints it. */
  function NatToString(n: nat): (r: string)
    ensures |r| > 0
    ensures forall i :: 0 <= i < |r| ==> '0' <= r[i] <= '9'
  {
    if n < 10 then [Digit(n)] else NatToString(n / 10) + [Digit(n % 10)]
  }

  /** Every value of the digit string, read back, is `n`. */
  function DecimalValue(s: string): int
  {
    if |s| == 0 then 0 else 10 * DecimalValue(s[..|s| - 1]) + (s[|s| - 1] as int - '0' as int)
  }

  lemma {:induction false} NatToStringRoundTrip(n: nat)
    ensures DecimalValue(NatToString(n)) == n
  {
    if n >= 10 {
      NatToStringRoundTrip(n / 10);
      var r := NatToString(n);
      assert r == NatToString(n / 10) + [Digit(n % 10)];
      assert r[..|r| - 1] == NatToString(n / 10);
      assert r[|r| - 1] as int - '0' as int == n % 10;
    }
  }
}

=== FILE: wrappers.dfy ===
/** Failure-carrying values shared by every module of the model: `Option` stands for
    JavaScript's `undefined`/`null` and Python's missing keys, `Result` for an operation
    that either returns a value or throws. */
module Wrappers {

  datatype Option<+T> = None | Some(value: T) {
    /** The value, or `default` when there is none. */
    function GetOr(default: T): T {
      match this
      case Some(v) => v
      case None => default
    }
  }

  datatype Result<+R, +E> = Success(value: R) | Failure(error: E)
}
